=== FILE: README.md ===
# taze `check`: run driver and command outcome

This project models the two layers of taze's `check` command that decide
what happens, with every collaborator whose body lies elsewhere treated as
an oracle or recorded as an event:

- **The check run** (`src/api/check.ts`). `CheckPackages` loads the
  registry cache unless forced, loads the workspace's packages, builds the
  private-package filter, resolves and possibly writes each package in
  order between its lifecycle hooks, then fires `afterPackagesEnd` and
  dumps the cache. `CheckSingleProject` resolves one package and writes it
  only under the three-way gate. `collectFromProject` is a run whose
  `beforePackageWrite` always answers `false`. `collectFromGlobal` turns
  the `npm ls --global` entries into one synthetic package. A run is a pure
  function from the loaded packages, the options, a resolver oracle and a
  `beforePackageWrite` oracle to an ordered trace of events and the
  processed packages. Nothing in the run catches, so a separate function
  cuts that trace at the first awaited call that rejects.
- **The command** (`src/commands/check/index.ts`). `check` collects
  packages from the source that `--global` selects and lets the user pick
  them when `--interactive` is set. It then decides `hasChanges`, counts
  the packages with an update and reports how many are up to date. It asks
  to write when interactive, writes every package when asked to, then
  installs or updates, and chooses the exit code. The prompts and the
  interactive picker are answers given in advance. As with the run, a
  rejecting call ends the command where it happens.

Files:

- `types.dfy` (module `Types`) holds packages, dependencies, options and
  the `changes` filter.
- `check_api.dfy` (module `CheckApi`) holds the run driver and the two
  collectors.
- `trace_shape.dfy` (module `TraceShape`) holds generic facts about traces
  built from per-package blocks.
- `check_run.dfy` (module `CheckRun`) holds what a run guarantees.
- `check_command.dfy` (module `CheckCommand`) holds the command, the
  counter and its properties.

Each trace event marks the point where the driver reaches a call:

| event | call |
|---|---|
| `LoadCache` | `loadCache` |
| `Loaded` | `afterPackagesLoaded` |
| `Start(p)` | `beforePackageStart` |
| `Resolve(p, accepted)` | `resolvePackage`, with the filter's verdicts |
| `AskWrite(p)` | `beforePackageWrite` |
| `Write(p)` | `writePackage` |
| `AfterWrite(p)` | `afterPackageWrite` |
| `End(p, pkg)` | `afterPackageEnd` |
| `AllEnd` | `afterPackagesEnd` |
| `DumpCache` | `dumpCache` |

An optional callback that is absent leaves its event in place as a no-op.

## Model

| member | source | states |
|---|---|---|
| Types.Changes | src/api/check.ts:128 | `changes` keeps only entries with `update` set, and keeps every one of them |
| Types.ChangesAppend | src/api/check.ts:128 | the filter works entry by entry: filtering two lists joined is the two filtered lists joined. Since a one-entry list is kept exactly when its entry has `update` set, this fixes the result's order and multiplicity |
| Types.ChangesNonEmptyIff | src/api/check.ts:128-130 | "`changes.length` is non-zero" is the same as "some resolved entry has `update` set", the form `hasChanges` uses |
| CheckApi.PrivatePackageNames | src/api/check.ts:100-103 | a name is in the list exactly when some loaded manifest is private under that non-empty name |
| CheckApi.WriteCycle | src/api/check.ts:127-137 | `beforePackageWrite` is consulted exactly when `write` is set and there is a change. The package is written exactly when, in addition, the answer is not `false`; an absent hook or `true` both write. `afterPackageWrite` fires exactly when a write happened, immediately after it. The hook is consulted first, the write comes right after its answer, and no call happens twice, so the package is written at most once |
| CheckApi.CheckSingleProject | src/api/check.ts:124-139 | resolution comes first and changes only `resolved`. A missing filter accepts every dependency, and a given one decides each dependency. What follows the resolve is exactly the write step on the resolved package |
| CheckApi.Loop | src/api/check.ts:108-113 | the loop yields one processed package per loaded package, in loaded order, each resolved under the filter |
| CheckApi.CheckPackages | src/api/check.ts:92-122 | `loadCache` is the first effect exactly when not forced. `afterPackagesEnd` then `dumpCache` close the run, even with zero packages. The run returns every loaded package, in order, resolved under the private-package filter |
| CheckApi.CheckPackagesOrReject | src/api/check.ts:92-139 | nothing in the run catches: a run finishes exactly when no awaited call rejects, and then it is the full run. Otherwise it stops right after its first rejecting call, having done exactly the full run's steps up to that call |
| CheckApi.CollectFromGlobal | src/api/check.ts:20-55 | one package with one dependency per `npm ls` entry, in entry order, and no manifest |
| CheckRun.PrivateFilterRejects | src/api/check.ts:100-106 | the run's filter rejects a dependency exactly when some loaded package is private under its name |
| CheckRun.SingleProjectGate | src/api/check.ts:124-139 | per package: the write gate holds, every event is about the package, and nothing else is resolved after the first event |
| CheckRun.BlockShape | src/api/check.ts:108-113 | a package's events open with `beforePackageStart` and then its resolve. They close with `afterPackageEnd` carrying the processed package, and every event in between is about that package |
| CheckRun.BlockGate | src/api/check.ts:108-113 | within a package's bracket, the write gate holds and the resolve carries exactly the filter's verdicts |
| CheckRun.LoopMembership | src/api/check.ts:108-113 | an event about package `q` occurs in the loop exactly when `q` is visited and the event belongs to `q`'s bracket |
| CheckRun.LoopShape | src/api/check.ts:108-113 | the loop is the packages' brackets in loaded order: its events are about the loaded packages, every loaded package is started and ended, the starts strictly increase so none is started twice, each start is followed by its resolve and each end by the next start |
| CheckRun.LoopEnded | src/api/check.ts:78-82 | over the loop, `afterPackageEnd` is handed exactly the processed packages, in order |
| CheckRun.RunMember | src/api/check.ts:92-122 | a package event occurs in a run exactly when it occurs in the run's loop |
| CheckRun.RunFrame | src/api/check.ts:92-122 | `loadCache` and `afterPackagesLoaded` come first and nowhere else. `afterPackagesEnd` and `dumpCache` come last and occur exactly once. Between them lies exactly the package loop |
| CheckRun.RunWriteGate | src/api/check.ts:127-136 | over a whole run, package `q` is written exactly when `write` is set, `q` has an update and the hook does not answer `false`. The hook is consulted only when `write` is set and there are changes. `afterPackageWrite` fires exactly for written packages |
| CheckRun.RunResolvesUnderFilter | src/api/check.ts:100-110 | each loaded package is resolved with a dependency marked accepted exactly when no loaded manifest is private under its name |
| CheckRun.RunOrder | src/api/check.ts:108-117 | package events never go back to an earlier package, and the packages are started in strictly increasing order. Each start is immediately followed by its resolve. Each end is immediately followed by the next package's start or, after the last package, by `afterPackagesEnd` |
| CheckRun.RunEventsOnce | src/api/check.ts:92-137 | no event occurs twice in a run, so each package is consulted, written and ended at most once. Every `writePackage` comes right after that package's `beforePackageWrite` |
| CheckRun.RunStartsOnce | src/api/check.ts:108-109 | `beforePackageStart` fires at most once per package in a run |
| CheckRun.RunVisitsAll | src/api/check.ts:108-113 | every loaded package is started and ended, and its end carries the processed package |
| CheckRun.RejectionSkipsDumpCache | src/api/check.ts:92-122 | a call that rejects anywhere before `dumpCache` aborts the run before `dumpCache`, so the cache is not dumped |
| CheckRun.RejectionInPackage | src/api/check.ts:108-136 | a call that rejects at any event about a package, `beforePackageStart` included, stops the run in that package: no later package starts and `afterPackagesEnd` does not fire |
| CheckRun.WriteRejectionStopsRun | src/api/check.ts:108-136 | when `writePackage` rejects for a package that passes the write gate, no later package starts and neither `afterPackagesEnd` nor `dumpCache` happens |
| CheckRun.CollectFromProjectNeverWrites | src/api/check.ts:74-77 | with the hook answering `false`, a run has no `writePackage` and no `afterPackageWrite` |
| CheckRun.CollectFromProjectOrder | src/api/check.ts:78-89 | `CheckApi.CollectFromProject` (`collectFromProject`) returns the run's processed packages, one per loaded package, in loaded order |
| CheckRun.GlobalCollection | src/api/check.ts:24-54 | each global dependency reads back to its `npm ls` entry through the `^` prefix, and carries `update = true` and source `dependencies`. The resolver sees every dependency as accepted |
| CheckCommand.Respond | src/commands/check/index.ts:28-32 | exit code 0 or 1. With nothing outdated: exit 0, only the up-to-date note, and no write, install or update |
| CheckCommand.Finish | src/commands/check/index.ts:16-136 | once the list is settled: the first effect is the global collection exactly under `--global`, the picker runs exactly under `--interactive`, the exit code is 1 exactly when something is outdated, nothing is written and `failOnOutdated` is set, and either every package is written in order or none is |
| CheckCommand.Check | src/commands/check/index.ts:16-139 | for the whole command, as a caller sees it: the same facts as for the settled list, which is the picker's choice under `--interactive` and the collected list otherwise |
| CheckCommand.RespondOrReject | src/commands/check/index.ts:28-136 | nothing in `check` catches: the command returns exactly when no awaited call rejects. Otherwise it stops right after the first rejecting call, having done the same steps as the full response up to that call |
| CheckCommand.WriteRejectionStopsCommand | src/commands/check/index.ts:73-135 | when `writePackage` rejects for some package, the command stops without an exit code, and nothing is installed or updated |
| CheckCommand.ScanForUpdate | src/commands/check/index.ts:40-44 | the inner loop, with its early return, finds an update exactly when the package has one |
| CheckCommand.CountUpdated | src/commands/check/index.ts:39-45 | `counter` equals the number of packages with at least one update, each counted once, and never exceeds the list length |
| CheckCommand.LastIsUpToDateCount | src/commands/check/index.ts:47 | `last = length - counter` is the number of packages with no update |
| CheckCommand.HasChangesIffCounted | src/commands/check/index.ts:28 | `hasChanges` holds exactly when the counter is positive |
| CheckCommand.ExitCodeIff | src/commands/check/index.ts:17-93 | exit code 1 exactly when something is outdated, nothing is written after the prompt, and `failOnOutdated` is set |
| CheckCommand.WritesAllOrNothing | src/commands/check/index.ts:73-76 | when something is outdated and writing is wanted, every package is written in list order, changed or not; otherwise none is |
| CheckCommand.WriteStepsWritten | src/commands/check/index.ts:73-76 | the write steps write the whole list when writing is wanted, and nothing otherwise |
| CheckCommand.WrittenWriteAll | src/commands/check/index.ts:74-75 | the write loop writes exactly the list, in order |
| CheckCommand.WriteAllMembers | src/commands/check/index.ts:74-75 | the write loop does nothing but write packages of the list |
| CheckCommand.AfterWritingMembers | src/commands/check/index.ts:94-135 | after a write: the install prompt, the install, and, under `--update`, the global update with `--global` and the project update otherwise; each under its own condition |
| CheckCommand.InstallGate | src/commands/check/index.ts:104-120 | the install runs exactly when something was written and `--install` or the install prompt asks for it |
| CheckCommand.ProjectUpdateGate | src/commands/check/index.ts:122-134 | the project update runs exactly after a write with `--update` and without `--global`, and passes on `--recursive` |
| CheckCommand.GlobalUpdateGate | src/commands/check/index.ts:122-131 | the global update runs exactly after a write with `--update` and `--global`, and installs exactly the changed entries of the first package |
| CheckCommand.PromptsGate | src/commands/check/index.ts:62-71 | the write prompt appears exactly when something is outdated, the run is interactive and `--write` is not given. The install prompt appears exactly when, in addition, writing happened and `--install` is not given |
| CheckCommand.UpToDateNote | src/commands/check/index.ts:29-53 | outside `--all`, the "up-to-date in N packages" note reports exactly the number of packages without updates, when positive and something is outdated. The "already up-to-date" note appears exactly when nothing is outdated |
| CheckCommand.RespondAfterCollection | src/commands/check/index.ts:28-136 | after the list is settled, the command neither collects nor picks again |
| CheckCommand.GlobalSourceCollection | src/commands/check/index.ts:20-21 | under `--global` the command works on one package with no manifest and one dependency per `npm ls` entry, each reading back to its entry |
| CheckCommand.ProjectCollection | src/commands/check/index.ts:22-23 | outside `--global`, the command works on the project run's processed packages, one per loaded package |

## Left out

- The bodies of `loadPackages`, `resolvePackage`, `writePackage`, `loadCache`, `dumpCache`, `dumpDependencies`, `renderPackages` and `promptInteractive` are not part of this model. The loaded packages, the resolver and the picker are inputs. The cache and writes are trace events.
- Version-range selection, the registry and the resolve cache are not part of this model.
- The `execa` and `@antfu/ni` subprocesses (`npm ls`, `npm install -g`, install, update) are left out as process I/O. The parsed `npm ls` map is an input list of entries, and install and update are recorded as effects.
- `JSON.parse` of the npm output is left out; its result is the input list.
- Console output, colours and progress bars are left out as UI. The one exception is the up-to-date notes, which carry the computed counts. The synthetic global package is named plain `npm` without colour codes.
- The `mode` tip, the `-w` hint, the "changes written" messages and the error lines from `renderPackages` are left out as console output.
- `onDependencyResolved` is left out; it only drives progress bars.
- Async and Promise plumbing is left out: every call is awaited in sequence. The `beforePackageWrite` answer is an `Option<bool>`, where `None` means the hook is absent or yields no boolean.
- The prompts return booleans. A cancelled prompt, which yields `undefined`, is not modelled separately.
- CheckCommand.UpToDateNote: the two spellings ("in one package" when `last` is 1, "in N packages" otherwise) are one effect carrying `last`.
- CheckApi.CollectFromGlobal: the source passes no filter to `resolvePackage`. It is modelled as the accept-all verdict, which is the default `CheckSingleProject` uses.
- CheckApi.CheckPackages, CheckRun.RunFrame and CheckCommand.Respond: their contracts describe calls that all succeed. A failing call is modelled separately by `CheckApi.CheckPackagesOrReject` and `CheckCommand.RespondOrReject`, which stop at the first rejecting call. A failing `loadPackages` has no event of its own, because the packages are an input; the run then stops after `loadCache` at most.
- CheckApi.CheckPackagesOrReject: `CheckPackages`, `CheckSingleProject` and `check` have no `try`, `catch` or `finally`, so a rejection ends the run before `dumpCache`. Whether `resolvePackage` and `writePackage` catch their own failures is not modelled.
- CheckCommand.Check and CheckCommand.Finish: their contracts describe a command whose collection and picker succeed. A failing `collectFromGlobal` (its `npm ls` or resolve), `collectFromProject` (its run) or `promptInteractive` ends `check` before any response and without an exit code. That is not modelled at command level; `CheckCommand.RespondOrReject` covers failures from the response on, and `CheckApi.CheckPackagesOrReject` covers those inside the project run.
- CheckApi.PrivatePackageNames: `raw` is optional here. A package without a manifest contributes no name, whereas the TypeScript code would fail reading `private` of `null`. Only the synthetic global package has no manifest, and it never reaches `CheckPackages`.
- Fields of packages and options that the two files do not branch on are left out, such as `loglevel` and the other fields of resolved entries.

=== FILE: check_api.dfy ===
/** The check run driver of src/api/check.ts. Every collaborator whose body is
    not part of this model (package loading, dependency resolution, manifest
    writing, the registry cache) is either a parameter or an event of the
    trace a run produces. Each event marks the point where the driver reaches
    the corresponding call; an optional callback that is absent makes that
    point a no-op but does not change the order. */
module CheckApi {
  import opened Types

  datatype Event =
    | LoadCache                            // loadCache()
    | Loaded                               // afterPackagesLoaded
    | Start(p: nat)                        // beforePackageStart of package p
    | Resolve(p: nat, accepted: seq<bool>) // resolvePackage, with the filter's verdict per dependency
    | AskWrite(p: nat)                     // beforePackageWrite is consulted
    | Write(p: nat)                        // writePackage
    | AfterWrite(p: nat)                   // afterPackageWrite
    | End(p: nat, pkg: PackageMeta)        // afterPackageEnd, with the processed package
    | AllEnd                               // afterPackagesEnd
    | DumpCache                            // dumpCache()

  /** Decides whether a dependency is resolved at all. */
  type DependencyFilter = RawDep -> bool

  /** Stands for resolvePackage: given a package and the filter's verdict on
      each of its dependencies, the resolved entries it stores in the package. */
  type Resolver = (PackageMeta, seq<bool>) -> seq<ResolvedDep>

  /** Stands for the beforePackageWrite callback: `None` when the callback is
      absent or yields no boolean, otherwise its (awaited) answer. */
  type WriteAnswer = PackageMeta -> Option<bool>

  datatype SingleResult = SingleResult(events: seq<Event>, pkg: PackageMeta)

  datatype RunResult = RunResult(trace: seq<Event>, packages: seq<PackageMeta>)

  /** One entry of the parsed `npm ls --global` output. */
  datatype NpmEntry = NpmEntry(name: string, version: string)

  /** The package an event is about, if any. */
  function PackageOf(e: Event): Option<nat>
  {
    match e
    case Start(p) => Some(p)
    case Resolve(p, _) => Some(p)
    case AskWrite(p) => Some(p)
    case Write(p) => Some(p)
    case AfterWrite(p) => Some(p)
    case End(p, _) => Some(p)
    case _ => None
  }

  /** The packages handed to afterPackageEnd, in trace order. */
  function EndedPackages(trace: seq<Event>): seq<PackageMeta>
  {
    if |trace| == 0 then []
    else (if trace[0].End? then [trace[0].pkg] else []) + EndedPackages(trace[1..])
  }

  // ---------------------------------------------------------------------------
  // The private-package filter

  /** `name` is the non-empty declared name of a manifest marked private. */
  predicate IsPrivateNamed(pkg: PackageMeta, name: string)
  {
    pkg.raw.Some? && pkg.raw.value.isPrivate && pkg.raw.value.name == name && name != ""
  }

  /** Whether some loaded manifest is private under `name`. */
  predicate PrivateNamed(packages: seq<PackageMeta>, name: string)
  {
    exists k :: 0 <= k < |packages| && IsPrivateNamed(packages[k], name)
  }

  /** The declared names of the private manifests, dropping empty names. */
  function PrivatePackageNames(packages: seq<PackageMeta>): (names: seq<string>)
    ensures forall n :: n in names <==> exists k :: 0 <= k < |packages| && IsPrivateNamed(packages[k], n)
  {
    if |packages| == 0 then []
    else
      var head := packages[0];
      var rest := PrivatePackageNames(packages[1..]);
      assert forall k :: 1 <= k < |packages| ==> packages[k] == packages[1..][k - 1];
      if head.raw.Some? && head.raw.value.isPrivate && head.raw.value.name != ""
      then [head.raw.value.name] + rest
      else rest
  }

  /** Rejects exactly the dependencies whose name is one of `names`. */
  function PrivateFilter(names: seq<string>): DependencyFilter
  {
    (dep: RawDep) => dep.name !in names
  }

  /** The filter's verdict on each dependency, in declaration order. */
  function Verdicts(filter: DependencyFilter, deps: seq<RawDep>): seq<bool>
  {
    seq(|deps|, i requires 0 <= i < |deps| => filter(deps[i]))
  }

  // ---------------------------------------------------------------------------
  // One package

  /** The write step of one resolved package: when `write` is set and the
      package has at least one change, beforePackageWrite is consulted and,
      unless it answers `false`, the package is written and afterPackageWrite
      fires. */
  function WriteCycle(p: nat, pkg: PackageMeta, write: bool, answer: Option<bool>): (w: seq<Event>)
    ensures AskWrite(p) in w <==> write && HasUpdate(pkg)
    ensures Write(p) in w <==> write && HasUpdate(pkg) && answer != Some(false)
    ensures AfterWrite(p) in w <==> Write(p) in w
    ensures forall i :: 0 <= i < |w| && w[i].Write? ==> i + 1 < |w| && w[i + 1] == AfterWrite(p)
    ensures forall i :: 0 <= i < |w| ==> PackageOf(w[i]) == Some(p)
    ensures forall i :: 0 <= i < |w| ==> w[i].AskWrite? || w[i].Write? || w[i].AfterWrite?
    // beforePackageWrite is consulted first, and its answer comes right before the write
    ensures |w| > 0 ==> w[0] == AskWrite(p)
    ensures forall i :: 0 <= i < |w| && w[i].Write? ==> 0 < i && w[i - 1] == AskWrite(p)
    // no call happens twice: the package is written at most once
    ensures forall i, j :: 0 <= i < j < |w| ==> w[i] != w[j]
  {
    ChangesNonEmptyIff(pkg);
    if write && |Changes(pkg.resolved)| > 0 then
      [AskWrite(p)] + (if answer != Some(false) then [Write(p), AfterWrite(p)] else [])
    else []
  }

  /** Resolves one package under the filter, then runs its write step. A
      missing filter accepts every dependency. */
  function CheckSingleProject(
    p: nat, pkg: PackageMeta, options: CheckOptions, filter: Option<DependencyFilter>,
    resolve: Resolver, beforeWrite: WriteAnswer): (r: SingleResult)
    // resolution only fills in `resolved`
    ensures r.pkg == pkg.(resolved := r.pkg.resolved)
    // the package is resolved first, under the filter's verdicts
    ensures |r.events| > 0 && r.events[0].Resolve? && r.events[0].p == p
    ensures |r.events[0].accepted| == |pkg.deps|
    ensures filter.None? ==> forall j :: 0 <= j < |pkg.deps| ==> r.events[0].accepted[j]
    ensures filter.Some? ==> forall j :: 0 <= j < |pkg.deps| ==> r.events[0].accepted[j] == filter.value(pkg.deps[j])
    ensures r.pkg.resolved == resolve(pkg, r.events[0].accepted)
    // what follows the resolve is exactly the write step
    ensures r.events[1..] == WriteCycle(p, r.pkg, options.write, beforeWrite(r.pkg))
  {
    var f := if filter.Some? then filter.value else (_: RawDep) => true;
    var accepted := Verdicts(f, pkg.deps);
    var resolved := pkg.(resolved := resolve(pkg, accepted));
    var events := [Resolve(p, accepted)] + WriteCycle(p, resolved, options.write, beforeWrite(resolved));
    assert events[1..] == WriteCycle(p, resolved, options.write, beforeWrite(resolved));
    SingleResult(events, resolved)
  }

  // ---------------------------------------------------------------------------
  // The run

  /** The events of package `k`: its start, its resolve/write cycle, its end. */
  function Block(
    packages: seq<PackageMeta>, k: nat, options: CheckOptions, filter: DependencyFilter,
    resolve: Resolver, beforeWrite: WriteAnswer): seq<Event>
    requires k < |packages|
  {
    var s := CheckSingleProject(k, packages[k], options, Some(filter), resolve, beforeWrite);
    [Start(k)] + s.events + [End(k, s.pkg)]
  }

  /** The package `k` as it stands after its resolve/write cycle: the
      loaded package with `resolved` filled in under the filter's verdicts. */
  function Processed(
    packages: seq<PackageMeta>, k: nat, options: CheckOptions, filter: DependencyFilter,
    resolve: Resolver, beforeWrite: WriteAnswer): (q: PackageMeta)
    requires k < |packages|
    ensures q == packages[k].(resolved := resolve(packages[k], Verdicts(filter, packages[k].deps)))
  {
    var s := CheckSingleProject(k, packages[k], options, Some(filter), resolve, beforeWrite);
    assert s.events[0].accepted == Verdicts(filter, packages[k].deps);
    s.pkg
  }

  /** The `for (const pkg of packages)` loop, from package `k` on. */
  function Loop(
    packages: seq<PackageMeta>, k: nat, options: CheckOptions, filter: DependencyFilter,
    resolve: Resolver, beforeWrite: WriteAnswer): (r: RunResult)
    requires k <= |packages|
    decreases |packages| - k
    ensures |r.packages| == |packages| - k
    ensures forall i :: 0 <= i < |r.packages| ==>
              r.packages[i] == packages[k + i].(resolved := resolve(packages[k + i], Verdicts(filter, packages[k + i].deps)))
  {
    if k == |packages| then RunResult([], [])
    else
      var rest := Loop(packages, k + 1, options, filter, resolve, beforeWrite);
      RunResult(
        Block(packages, k, options, filter, resolve, beforeWrite) + rest.trace,
        [Processed(packages, k, options, filter, resolve, beforeWrite)] + rest.packages)
  }

  /** CheckPackages: load the cache unless forced, load the packages, build
      the private-package filter, process the packages in order, then fire
      afterPackagesEnd and dump the cache. */
  function CheckPackages(
    options: CheckOptions, packages: seq<PackageMeta>, resolve: Resolver,
    beforeWrite: WriteAnswer): (r: RunResult)
    ensures |r.trace| >= 3
    // loadCache is the first effect exactly when the run is not forced, and happens nowhere else
    ensures r.trace[0] == LoadCache <==> !options.force
    // afterPackagesEnd then dumpCache close the run
    ensures r.trace[|r.trace| - 2] == AllEnd && r.trace[|r.trace| - 1] == DumpCache
    // every loaded package comes back, in order, resolved under the private-package filter
    ensures |r.packages| == |packages|
    ensures forall q :: 0 <= q < |packages| ==>
              r.packages[q] == packages[q].(resolved := resolve(packages[q], Verdicts(PrivateFilter(PrivatePackageNames(packages)), packages[q].deps)))
  {
    var filter := PrivateFilter(PrivatePackageNames(packages));
    var loop := Loop(packages, 0, options, filter, resolve, beforeWrite);
    var head := if options.force then [Loaded] else [LoadCache, Loaded];
    assert forall q :: 0 <= q < |packages| ==> loop.packages[q] == loop.packages[0 + q];
    RunResult(head + loop.trace + [AllEnd, DumpCache], loop.packages)
  }

  /** How a run ends: it either completes, or some awaited call throws or
      rejects and the run stops there, leaving the steps taken so far. */
  datatype RunEnd = Finished(run: RunResult) | Aborted(trace: seq<Event>)

  /** CheckPackages when collaborator calls may fail: `rejects(e)` says that
      the call at event `e` throws or rejects. Nothing in CheckPackages or
      CheckSingleProject catches, so the first failure ends the run at once,
      with no later package, no afterPackagesEnd and no dumpCache. */
  function CheckPackagesOrReject(
    options: CheckOptions, packages: seq<PackageMeta>, resolve: Resolver,
    beforeWrite: WriteAnswer, rejects: Event -> bool): (r: RunEnd)
    ensures var t := CheckPackages(options, packages, resolve, beforeWrite).trace;
            r.Finished? <==> forall i :: 0 <= i < |t| ==> !rejects(t[i])
    ensures r.Finished? ==> r.run == CheckPackages(options, packages, resolve, beforeWrite)
    // an aborted run is a prefix of the full run ending at its first failing call
    ensures var t := CheckPackages(options, packages, resolve, beforeWrite).trace;
            r.Aborted? ==> && 0 < |r.trace| <= |t| && r.trace == t[..|r.trace|]
                           && rejects(r.trace[|r.trace| - 1])
                           && forall i :: 0 <= i < |r.trace| - 1 ==> !rejects(r.trace[i])
  {
    var full := CheckPackages(options, packages, resolve, beforeWrite);
    match UpToRejection(full.trace, rejects)
    case None => Finished(full)
    case Some(steps) => Aborted(steps)
  }

  // ---------------------------------------------------------------------------
  // The two collectors

  /** collectFromProject: a run whose beforePackageWrite always answers
      `false`; the result is what afterPackageEnd collected. */
  function CollectFromProject(options: CheckOptions, packages: seq<PackageMeta>, resolve: Resolver): seq<PackageMeta>
  {
    EndedPackages(CheckPackages(options, packages, resolve, _ => Some(false)).trace)
  }

  /** The dependency collectFromGlobal makes of one `npm ls` entry. */
  function GlobalDep(e: NpmEntry): RawDep
  {
    RawDep(e.name, "^" + e.version, "dependencies", true)
  }

  /** collectFromGlobal: one synthetic package holding every globally
      installed tool, resolved without a filter. */
  function CollectFromGlobal(entries: seq<NpmEntry>, resolve: Resolver): (r: seq<PackageMeta>)
    ensures |r| == 1
    ensures |r[0].deps| == |entries|
    ensures forall i :: 0 <= i < |entries| ==> r[0].deps[i].name == entries[i].name
    ensures r[0].raw.None?
  {
    var deps := seq(|entries|, i requires 0 <= i < |entries| => GlobalDep(entries[i]));
    var pkg := PackageMeta("npm", None, "", "", "", deps, []);
    [pkg.(resolved := resolve(pkg, seq(|deps|, _ => true)))]
  }

  /** Reads back the `npm ls` entry a global dependency was made from. */
  function EntryOf(dep: RawDep): Option<NpmEntry>
  {
    if |dep.currentVersion| > 0 && dep.currentVersion[0] == '^'
    then Some(NpmEntry(dep.name, dep.currentVersion[1..]))
    else None
  }
}

=== FILE: check_command.dfy ===
/** The `check` command of src/commands/check/index.ts: collect the packages
    (globally installed tools or the project's manifests), decide whether
    anything is outdated, count the packages that are already up to date,
    write every package when asked to, optionally install or update, and
    choose the exit code. Prompts become answers given in advance; console
    output is left out except for the two up-to-date notes, which carry the
    counts the command computes. */
module CheckCommand {
  import opened Types
  import CheckApi
  import CheckRun

  /** Where the packages come from. */
  datatype Source = GlobalNpm | ProjectTree

  /** Everything the command consults that is not part of this model: the
      parsed `npm ls --global` output, the loaded manifests, the resolver,
      the interactive picker and the answers to the two confirm prompts. */
  datatype Collaborators = Collaborators(
    npmEntries: seq<CheckApi.NpmEntry>,
    projectPackages: seq<PackageMeta>,
    resolve: CheckApi.Resolver,
    promptInteractive: seq<PackageMeta> -> seq<PackageMeta>,
    confirmWrite: bool,
    confirmInstall: bool)

  datatype Effect =
    | Collected(source: Source)                 // collectFromGlobal / collectFromProject
    | PickedInteractively                       // promptInteractive
    | AllUpToDate                               // "dependencies are already up-to-date"
    | UpToDateIn(count: nat)                    // "... already up-to-date in one package / in N packages"
    | AskedWrite                                // the "write to package.json" confirm
    | WrotePackage(pkg: PackageMeta)            // writePackage
    | AskedInstall                              // the "install now" confirm
    | Installed                                 // the package manager's install
    | UpdatedGlobal(changes: seq<ResolvedDep>)  // `npm install -g` of the changed tools
    | UpdatedProject(recursive: bool)           // the package manager's update

  datatype Outcome = Outcome(exitCode: int, effects: seq<Effect>, packages: seq<PackageMeta>)

  /** The collection source follows the `global` flag alone. */
  function SourceOf(options: CheckOptions): (s: Source)
  {
    if options.global then GlobalNpm else ProjectTree
  }

  /** The packages the command works on, before any interactive picking. */
  function Collect(options: CheckOptions, env: Collaborators): seq<PackageMeta>
  {
    match SourceOf(options)
    case GlobalNpm => CheckApi.CollectFromGlobal(env.npmEntries, env.resolve)
    case ProjectTree => CheckApi.CollectFromProject(options, env.projectPackages, env.resolve)
  }

  /** The command's `hasChanges`: a non-empty list in which some package has
      some update. */
  predicate HasChanges(pkgs: seq<PackageMeta>)
  {
    |pkgs| > 0 && exists i :: 0 <= i < |pkgs| && HasUpdate(pkgs[i])
  }

  /** The positions below `k` of the packages with at least one update. */
  function UpdatedBelow(pkgs: seq<PackageMeta>, k: nat): set<nat>
    requires k <= |pkgs|
  {
    set i: nat | i < k && HasUpdate(pkgs[i])
  }

  /** The positions below `k` of the packages with no update at all. */
  function UpToDateBelow(pkgs: seq<PackageMeta>, k: nat): set<nat>
    requires k <= |pkgs|
  {
    set i: nat | i < k && !HasUpdate(pkgs[i])
  }

  /** The positions of the packages with at least one update. */
  function UpdatedIndices(pkgs: seq<PackageMeta>): set<nat>
  {
    UpdatedBelow(pkgs, |pkgs|)
  }

  /** The positions of the packages with no update at all. */
  function UpToDateIndices(pkgs: seq<PackageMeta>): set<nat>
  {
    UpToDateBelow(pkgs, |pkgs|)
  }

  /** The final `write` flag: asked for interactively when it was not given. */
  function WantsWrite(options: CheckOptions, env: Collaborators): bool
  {
    if options.interactive && !options.write then env.confirmWrite else options.write
  }

  /** The final `install` flag: asked for interactively when it was not given. */
  function WantsInstall(options: CheckOptions, env: Collaborators): bool
  {
    if options.interactive && !options.install then env.confirmInstall else options.install
  }

  /** writePackage for every package of the list, in order. */
  function WriteAll(pkgs: seq<PackageMeta>): (w: seq<Effect>)
  {
    if |pkgs| == 0 then [] else [WrotePackage(pkgs[0])] + WriteAll(pkgs[1..])
  }

  /** The packages written, in the order of the effects. */
  function Written(effects: seq<Effect>): seq<PackageMeta>
  {
    if |effects| == 0 then []
    else (if effects[0].WrotePackage? then [effects[0].pkg] else []) + Written(effects[1..])
  }

  /** The steps after a write: the optional install prompt, the install, and
      the update of the globally installed tools or of the project. */
  function AfterWriting(options: CheckOptions, env: Collaborators, pkgs: seq<PackageMeta>): seq<Effect>
    requires |pkgs| > 0
  {
    var ask := if options.interactive && !options.install then [AskedInstall] else [];
    var install := if WantsInstall(options, env) then [Installed] else [];
    var update :=
      if !options.update then []
      else if options.global then [UpdatedGlobal(Changes(pkgs[0].resolved))]
      else [UpdatedProject(options.recursive)];
    ask + install + update
  }

  /** The "already up-to-date in N packages" note, printed outside `--all`
      when some packages have no update. */
  function UpToDateReport(options: CheckOptions, pkgs: seq<PackageMeta>): seq<Effect>
  {
    var last := |pkgs| - |UpdatedIndices(pkgs)|;
    if !options.all && last > 0 then [UpToDateIn(last)] else []
  }

  /** The "write to package.json" confirm, asked when interactive without `--write`. */
  function WritePrompt(options: CheckOptions): seq<Effect>
  {
    if options.interactive && !options.write then [AskedWrite] else []
  }

  /** Writing every package, then installing or updating, when writing was
      asked for. */
  function WriteSteps(options: CheckOptions, env: Collaborators, pkgs: seq<PackageMeta>): seq<Effect>
    requires |pkgs| > 0
  {
    if WantsWrite(options, env) then WriteAll(pkgs) + AfterWriting(options, env, pkgs) else []
  }

  /** Everything the command does once the list of packages is settled:
      report, count, ask, write, install or update, and pick the exit code. */
  function Respond(options: CheckOptions, env: Collaborators, pkgs: seq<PackageMeta>): (r: Outcome)
    ensures r.packages == pkgs
    ensures r.exitCode == 0 || r.exitCode == 1
    // nothing outdated: success, one note, and nothing is written, installed or updated
    ensures !HasChanges(pkgs) ==> r.exitCode == 0 && r.effects == [AllUpToDate]
  {
    if !HasChanges(pkgs) then
      Outcome(0, [AllUpToDate], pkgs)
    else
      // exitCode starts at 0 and is set to 1 only in the no-write branch under failOnOutdated
      var code := if WantsWrite(options, env) then 0 else if options.failOnOutdated then 1 else 0;
      Outcome(code, UpToDateReport(options, pkgs) + WritePrompt(options) + WriteSteps(options, env, pkgs), pkgs)
  }

  /** The effects before the response: the collection, and the picker
      when interactive. */
  function CollectionEffects(options: CheckOptions): (p: seq<Effect>)
    ensures |p| > 0 && (p[0] == Collected(GlobalNpm) <==> options.global)
    ensures PickedInteractively in p <==> options.interactive
    ensures forall i :: 0 <= i < |p| ==> !p[i].WrotePackage?
  {
    [Collected(SourceOf(options))] + (if options.interactive then [PickedInteractively] else [])
  }

  /** The command once the list is settled: the collection and picking
      effects, then the response. */
  function Finish(options: CheckOptions, env: Collaborators, pkgs: seq<PackageMeta>): (r: Outcome)
    ensures r.packages == pkgs
    ensures |r.effects| > 0 && (r.effects[0] == Collected(GlobalNpm) <==> options.global)
    ensures PickedInteractively in r.effects <==> options.interactive
    ensures r.exitCode == if HasChanges(pkgs) && !WantsWrite(options, env) && options.failOnOutdated then 1 else 0
    ensures Written(r.effects) == if HasChanges(pkgs) && WantsWrite(options, env) then pkgs else []
  {
    var o := Respond(options, env, pkgs);
    var prefix := CollectionEffects(options);
    ExitCodeIff(options, env, pkgs);
    RespondAfterCollection(options, env, pkgs);
    WritesAllOrNothing(options, env, pkgs);
    WrittenNone(prefix);
    WrittenAppend(prefix, o.effects);
    Outcome(o.exitCode, prefix + o.effects, pkgs)
  }

  /** The whole command: collect from the source the `global` flag selects,
      let the user pick when interactive, then respond to the settled list. */
  function Check(options: CheckOptions, env: Collaborators): (r: Outcome)
    // the list the command works on: the picker's choice when interactive, else what was collected
    ensures r.packages == if options.interactive then env.promptInteractive(Collect(options, env)) else Collect(options, env)
    ensures |r.effects| > 0 && (r.effects[0] == Collected(GlobalNpm) <==> options.global)
    ensures PickedInteractively in r.effects <==> options.interactive
    // exit code 1 exactly for pending changes left unwritten under failOnOutdated
    ensures r.exitCode == if HasChanges(r.packages) && !WantsWrite(options, env) && options.failOnOutdated then 1 else 0
    // every package is written, in order, or none is
    ensures Written(r.effects) == if HasChanges(r.packages) && WantsWrite(options, env) then r.packages else []
  {
    var collected := Collect(options, env);
    Finish(options, env, if options.interactive then env.promptInteractive(collected) else collected)
  }

  /** How the command ends: it returns its exit code, or some awaited call
      throws or rejects and the command stops there. */
  datatype CommandEnd = Returned(outcome: Outcome) | Threw(effects: seq<Effect>)

  /** Respond when the calls behind its effects may fail: `rejects(e)` says
      that the call behind effect `e` throws or rejects. Nothing in `check`
      catches, so the first failure ends the command. */
  function RespondOrReject(options: CheckOptions, env: Collaborators, pkgs: seq<PackageMeta>, rejects: Effect -> bool): (r: CommandEnd)
    ensures var e := Respond(options, env, pkgs).effects;
            r.Returned? <==> forall i :: 0 <= i < |e| ==> !rejects(e[i])
    ensures r.Returned? ==> r.outcome == Respond(options, env, pkgs)
    ensures var e := Respond(options, env, pkgs).effects;
            r.Threw? ==> && 0 < |r.effects| <= |e| && r.effects == e[..|r.effects|]
                         && rejects(r.effects[|r.effects| - 1])
                         && forall i :: 0 <= i < |r.effects| - 1 ==> !rejects(r.effects[i])
  {
    var o := Respond(options, env, pkgs);
    match UpToRejection(o.effects, rejects)
    case None => Returned(o)
    case Some(steps) => Threw(steps)
  }

  // ---------------------------------------------------------------------------
  // The counter

  /** The inner `for` loop of the reducer: scans the resolved entries and
      stops at the first update. */
  method ScanForUpdate(pkg: PackageMeta) returns (found: bool)
    ensures found <==> HasUpdate(pkg)
  {
    var i := 0;
    while i < |pkg.resolved|
      invariant 0 <= i <= |pkg.resolved|
      invariant forall j :: 0 <= j < i ==> !pkg.resolved[j].update
    {
      if pkg.resolved[i].update {
        return true;
      }
      i := i + 1;
    }
    return false;
  }

  /** `counter`: the `reduce` over the packages, adding one for each package
      in which the scan finds an update. It counts exactly the packages with
      an update. */
  method CountUpdated(pkgs: seq<PackageMeta>) returns (counter: nat)
    ensures counter == |UpdatedIndices(pkgs)|
    ensures counter <= |pkgs|
  {
    counter := 0;
    var k := 0;
    while k < |pkgs|
      invariant 0 <= k <= |pkgs|
      invariant counter == |UpdatedBelow(pkgs, k)|
      invariant counter <= k
    {
      var found := ScanForUpdate(pkgs[k]);
      UpdatedStep(pkgs, k);
      if found {
        counter := counter + 1;
      }
      k := k + 1;
    }
  }

  /** Extending the prefix by one package adds its position to exactly one
      of the two sets. */
  lemma UpdatedStep(pkgs: seq<PackageMeta>, k: nat)
    requires k < |pkgs|
    ensures HasUpdate(pkgs[k]) ==>
              |UpdatedBelow(pkgs, k + 1)| == |UpdatedBelow(pkgs, k)| + 1 &&
              UpToDateBelow(pkgs, k + 1) == UpToDateBelow(pkgs, k)
    ensures !HasUpdate(pkgs[k]) ==>
              UpdatedBelow(pkgs, k + 1) == UpdatedBelow(pkgs, k) &&
              |UpToDateBelow(pkgs, k + 1)| == |UpToDateBelow(pkgs, k)| + 1
  {
    if HasUpdate(pkgs[k]) {
      UpdatedGrows(pkgs, k);
    } else {
      UpToDateGrows(pkgs, k);
    }
  }

  lemma UpdatedGrows(pkgs: seq<PackageMeta>, k: nat)
    requires k < |pkgs| && HasUpdate(pkgs[k])
    ensures UpdatedBelow(pkgs, k + 1) == UpdatedBelow(pkgs, k) + {k}
    ensures k !in UpdatedBelow(pkgs, k)
    ensures UpToDateBelow(pkgs, k + 1) == UpToDateBelow(pkgs, k)
  {
    var a, b := UpdatedBelow(pkgs, k + 1), UpdatedBelow(pkgs, k);
    forall i | i in a ensures i in b + {k} { }
    forall i | i in b + {k} ensures i in a { }
    var c, d := UpToDateBelow(pkgs, k + 1), UpToDateBelow(pkgs, k);
    forall i | i in c ensures i in d { }
  }

  lemma UpToDateGrows(pkgs: seq<PackageMeta>, k: nat)
    requires k < |pkgs| && !HasUpdate(pkgs[k])
    ensures UpToDateBelow(pkgs, k + 1) == UpToDateBelow(pkgs, k) + {k}
    ensures k !in UpToDateBelow(pkgs, k)
    ensures UpdatedBelow(pkgs, k + 1) == UpdatedBelow(pkgs, k)
  {
    var a, b := UpToDateBelow(pkgs, k + 1), UpToDateBelow(pkgs, k);
    forall i | i in a ensures i in b + {k} { }
    forall i | i in b + {k} ensures i in a { }
    var c, d := UpdatedBelow(pkgs, k + 1), UpdatedBelow(pkgs, k);
    forall i | i in c ensures i in d { }
  }

  lemma {:induction false} PartitionBelow(pkgs: seq<PackageMeta>, k: nat)
    requires k <= |pkgs|
    ensures |UpdatedBelow(pkgs, k)| + |UpToDateBelow(pkgs, k)| == k
    decreases k
  {
    if k == 0 {
      assert UpdatedBelow(pkgs, 0) == {};
      assert UpToDateBelow(pkgs, 0) == {};
    } else {
      PartitionBelow(pkgs, k - 1);
      UpdatedStep(pkgs, k - 1);
    }
  }

  /** `last = resolvePkgs.length - counter` is the number of packages with no
      update at all. */
  lemma LastIsUpToDateCount(pkgs: seq<PackageMeta>)
    ensures |pkgs| - |UpdatedIndices(pkgs)| == |UpToDateIndices(pkgs)|
  {
    PartitionBelow(pkgs, |pkgs|);
  }

  /** `hasChanges` holds exactly when the counter is positive. */
  lemma HasChangesIffCounted(pkgs: seq<PackageMeta>)
    ensures HasChanges(pkgs) <==> |UpdatedIndices(pkgs)| > 0
  {
    if HasChanges(pkgs) {
      var i :| 0 <= i < |pkgs| && HasUpdate(pkgs[i]);
      assert i in UpdatedIndices(pkgs);
    }
    if |UpdatedIndices(pkgs)| > 0 {
      var i :| i in UpdatedIndices(pkgs);
      assert HasUpdate(pkgs[i]);
    }
  }

  // ---------------------------------------------------------------------------
  // Writes

  lemma {:induction false} WrittenAppend(a: seq<Effect>, b: seq<Effect>)
    ensures Written(a + b) == Written(a) + Written(b)
    decreases |a|
  {
    if |a| == 0 {
      assert a + b == b;
    } else {
      var x := if a[0].WrotePackage? then [a[0].pkg] else [];
      assert (a + b)[0] == a[0];
      assert (a + b)[1..] == a[1..] + b;
      assert Written(a + b) == x + Written(a[1..] + b);
      WrittenAppend(a[1..], b);
      assert Written(a) == x + Written(a[1..]);
      assert x + (Written(a[1..]) + Written(b)) == (x + Written(a[1..])) + Written(b);
    }
  }

  /** The effects that write nothing contribute nothing to `Written`. */
  lemma {:induction false} WrittenNone(e: seq<Effect>)
    requires forall i :: 0 <= i < |e| ==> !e[i].WrotePackage?
    ensures Written(e) == []
    decreases |e|
  {
    if |e| > 0 {
      WrittenNone(e[1..]);
    }
  }

  /** Writing every package and reading back the written packages gives the
      list again. */
  lemma {:induction false} WrittenWriteAll(pkgs: seq<PackageMeta>)
    ensures Written(WriteAll(pkgs)) == pkgs
    decreases |pkgs|
  {
    if |pkgs| > 0 {
      WrittenWriteAll(pkgs[1..]);
    }
  }

  // ---------------------------------------------------------------------------
  // What the command does

  /** The exit code is 1 exactly when something is outdated, nothing was
      written and `failOnOutdated` is set. */
  lemma ExitCodeIff(options: CheckOptions, env: Collaborators, pkgs: seq<PackageMeta>)
    ensures Respond(options, env, pkgs).exitCode == 1 <==>
              HasChanges(pkgs) && !WantsWrite(options, env) && options.failOnOutdated
  {
  }

  /** Every package of the list is written, in order, exactly when something
      is outdated and writing was asked for (by flag or at the prompt);
      otherwise nothing is written. */
  lemma WritesAllOrNothing(options: CheckOptions, env: Collaborators, pkgs: seq<PackageMeta>)
    ensures Written(Respond(options, env, pkgs).effects) == if HasChanges(pkgs) && WantsWrite(options, env) then pkgs else []
  {
    var e := Respond(options, env, pkgs).effects;
    if HasChanges(pkgs) {
      var before := UpToDateReport(options, pkgs) + WritePrompt(options);
      WrittenNone(before);
      assert e == before + WriteSteps(options, env, pkgs);
      WrittenAppend(before, WriteSteps(options, env, pkgs));
      WriteStepsWritten(options, env, pkgs);
    } else {
      WrittenNone(e);
    }
  }

  /** The write steps write the whole list when writing was asked for, and
      nothing otherwise. */
  lemma WriteStepsWritten(options: CheckOptions, env: Collaborators, pkgs: seq<PackageMeta>)
    requires |pkgs| > 0
    ensures Written(WriteSteps(options, env, pkgs)) == if WantsWrite(options, env) then pkgs else []
  {
    if WantsWrite(options, env) {
      var after := AfterWriting(options, env, pkgs);
      WrittenNone(after);
      WrittenAppend(WriteAll(pkgs), after);
      WrittenWriteAll(pkgs);
    } else {
      WrittenNone(WriteSteps(options, env, pkgs));
    }
  }

  /** The pieces of a response with changes, by what they may hold. */
  lemma PieceMembers(options: CheckOptions, env: Collaborators, pkgs: seq<PackageMeta>)
    requires HasChanges(pkgs)
    ensures forall e :: e in UpToDateReport(options, pkgs) <==>
              e == UpToDateIn(|UpToDateIndices(pkgs)|) && !options.all && |UpToDateIndices(pkgs)| > 0
    ensures forall e :: e in WritePrompt(options) <==> e == AskedWrite && options.interactive && !options.write
    ensures forall e :: e in WriteSteps(options, env, pkgs) <==>
              WantsWrite(options, env) && ((e.WrotePackage? && e.pkg in pkgs) || e in AfterWriting(options, env, pkgs))
  {
    LastIsUpToDateCount(pkgs);
    WriteAllMembers(pkgs);
  }

  /** The install runs only after a write, and exactly when `--install` or
      the install prompt asks for it. */
  lemma InstallGate(options: CheckOptions, env: Collaborators, pkgs: seq<PackageMeta>)
    ensures Installed in Respond(options, env, pkgs).effects <==>
              HasChanges(pkgs) && WantsWrite(options, env) && WantsInstall(options, env)
  {
    if HasChanges(pkgs) {
      PieceMembers(options, env, pkgs);
      AfterWritingMembers(options, env, pkgs);
    }
  }

  /** The project update runs only after a write, exactly when `--update`
      is set outside `--global`, and passes on `--recursive`. */
  lemma ProjectUpdateGate(options: CheckOptions, env: Collaborators, pkgs: seq<PackageMeta>)
    ensures forall b :: UpdatedProject(b) in Respond(options, env, pkgs).effects <==>
              HasChanges(pkgs) && WantsWrite(options, env) && options.update && !options.global && b == options.recursive
  {
    if HasChanges(pkgs) {
      PieceMembers(options, env, pkgs);
      AfterWritingMembers(options, env, pkgs);
    }
  }

  /** The global update runs only after a write, exactly when `--update` is
      set with `--global`, and installs exactly the changed entries of the
      first (the one global) package. */
  lemma GlobalUpdateGate(options: CheckOptions, env: Collaborators, pkgs: seq<PackageMeta>)
    ensures forall c :: UpdatedGlobal(c) in Respond(options, env, pkgs).effects <==>
              HasChanges(pkgs) && WantsWrite(options, env) && options.update && options.global && c == Changes(pkgs[0].resolved)
  {
    if HasChanges(pkgs) {
      PieceMembers(options, env, pkgs);
      AfterWritingMembers(options, env, pkgs);
    }
  }

  /** The write prompt appears exactly when something is outdated, the run
      is interactive and `--write` was not given; the install prompt exactly
      when, in addition, the packages were written and `--install` was not
      given. */
  lemma PromptsGate(options: CheckOptions, env: Collaborators, pkgs: seq<PackageMeta>)
    ensures AskedWrite in Respond(options, env, pkgs).effects <==>
              HasChanges(pkgs) && options.interactive && !options.write
    ensures AskedInstall in Respond(options, env, pkgs).effects <==>
              HasChanges(pkgs) && WantsWrite(options, env) && options.interactive && !options.install
  {
    if HasChanges(pkgs) {
      PieceMembers(options, env, pkgs);
      AfterWritingMembers(options, env, pkgs);
    }
  }

  /** Outside `--all`, the "already up-to-date" note reports the number of
      packages without any update, and appears exactly when that number is
      positive and something else is outdated. */
  lemma UpToDateNote(options: CheckOptions, env: Collaborators, pkgs: seq<PackageMeta>, n: nat)
    ensures UpToDateIn(n) in Respond(options, env, pkgs).effects <==>
              HasChanges(pkgs) && !options.all && n == |UpToDateIndices(pkgs)| && n > 0
    ensures AllUpToDate in Respond(options, env, pkgs).effects <==> !HasChanges(pkgs)
  {
    if HasChanges(pkgs) {
      PieceMembers(options, env, pkgs);
      AfterWritingMembers(options, env, pkgs);
    }
  }

  /** The response never collects or picks again. */
  lemma RespondAfterCollection(options: CheckOptions, env: Collaborators, pkgs: seq<PackageMeta>)
    ensures forall e :: e in Respond(options, env, pkgs).effects ==> !e.Collected? && !e.PickedInteractively?
  {
    if HasChanges(pkgs) {
      PieceMembers(options, env, pkgs);
      AfterWritingMembers(options, env, pkgs);
    }
  }

  /** Under `--global` the command works on the one synthetic package
      holding the `npm ls` entries: no manifest, one dependency per entry,
      each reading back to its entry. */
  lemma GlobalSourceCollection(options: CheckOptions, env: Collaborators)
    requires options.global
    ensures var c := Collect(options, env);
            && |c| == 1
            && c[0].raw.None?
            && |c[0].deps| == |env.npmEntries|
            && forall i :: 0 <= i < |env.npmEntries| ==> CheckApi.EntryOf(c[0].deps[i]) == Some(env.npmEntries[i])
  {
    CheckRun.GlobalCollection(env.npmEntries, env.resolve);
  }

  /** Outside `--global` the command works on what the project run hands
      to afterPackageEnd: every loaded package, in order, resolved under the
      private-package filter, none of them written by the run itself. */
  lemma ProjectCollection(options: CheckOptions, env: Collaborators)
    requires !options.global
    ensures Collect(options, env) == CheckApi.CheckPackages(options, env.projectPackages, env.resolve, _ => Some(false)).packages
    ensures |Collect(options, env)| == |env.projectPackages|
  {
    CheckRun.CollectFromProjectOrder(options, env.projectPackages, env.resolve);
  }

  /** The write loop writes exactly the packages of the list, and does
      nothing else. */
  lemma {:induction false} WriteAllMembers(pkgs: seq<PackageMeta>)
    ensures forall e :: e in WriteAll(pkgs) <==> e.WrotePackage? && e.pkg in pkgs
    decreases |pkgs|
  {
    if |pkgs| > 0 {
      WriteAllMembers(pkgs[1..]);
      assert pkgs == [pkgs[0]] + pkgs[1..];
    }
  }

  /** What may follow the write: the install prompt, the install, and one
      of the two updates, each under its own condition. */
  lemma AfterWritingMembers(options: CheckOptions, env: Collaborators, pkgs: seq<PackageMeta>)
    requires |pkgs| > 0
    ensures forall e :: e in AfterWriting(options, env, pkgs) <==>
              (e == AskedInstall && options.interactive && !options.install) ||
              (e == Installed && WantsInstall(options, env)) ||
              (e == UpdatedGlobal(Changes(pkgs[0].resolved)) && options.update && options.global) ||
              (e == UpdatedProject(options.recursive) && options.update && !options.global)
  {
  }

  /** The write loop's `q`-th step writes the `q`-th package. */
  lemma {:induction false} WriteAllAt(pkgs: seq<PackageMeta>, q: nat)
    requires q < |pkgs|
    ensures |WriteAll(pkgs)| == |pkgs|
    ensures WriteAll(pkgs)[q] == WrotePackage(pkgs[q])
    decreases q
  {
    if q == 0 {
      WriteAllLength(pkgs);
    } else {
      WriteAllAt(pkgs[1..], q - 1);
    }
  }

  lemma {:induction false} WriteAllLength(pkgs: seq<PackageMeta>)
    ensures |WriteAll(pkgs)| == |pkgs|
    decreases |pkgs|
  {
    if |pkgs| > 0 {
      WriteAllLength(pkgs[1..]);
    }
  }

  /** With changes and a wanted write, the response is the notes, the
      prompt, the write loop, then the install and update steps. */
  lemma RespondWriting(options: CheckOptions, env: Collaborators, pkgs: seq<PackageMeta>)
    requires HasChanges(pkgs) && WantsWrite(options, env)
    ensures Respond(options, env, pkgs).effects ==
              (UpToDateReport(options, pkgs) + WritePrompt(options) + WriteAll(pkgs)) + AfterWriting(options, env, pkgs)
  {
  }

  /** Before the install and update steps, the response holds only notes,
      the write prompt and writes. */
  lemma BeforeAfterWriting(options: CheckOptions, env: Collaborators, pkgs: seq<PackageMeta>, n: nat)
    requires HasChanges(pkgs)
    requires n <= |UpToDateReport(options, pkgs) + WritePrompt(options) + WriteAll(pkgs)|
    ensures forall x :: x in (UpToDateReport(options, pkgs) + WritePrompt(options) + WriteAll(pkgs))[..n] ==>
              x.UpToDateIn? || x.AskedWrite? || x.WrotePackage?
  {
    var upto := UpToDateReport(options, pkgs) + WritePrompt(options) + WriteAll(pkgs);
    PieceMembers(options, env, pkgs);
    WriteAllMembers(pkgs);
    forall x | x in upto[..n]
      ensures x.UpToDateIn? || x.AskedWrite? || x.WrotePackage?
    {
      assert x in upto;
    }
  }

  /** Steps that stop before the install and update steps neither install
      nor update. */
  lemma StoppedBeforeAfterWriting(options: CheckOptions, env: Collaborators, pkgs: seq<PackageMeta>, steps: seq<Effect>)
    requires HasChanges(pkgs)
    requires var upto := UpToDateReport(options, pkgs) + WritePrompt(options) + WriteAll(pkgs);
             |steps| <= |upto| && steps == upto[..|steps|]
    ensures Installed !in steps
    ensures forall c :: UpdatedGlobal(c) !in steps
    ensures forall b :: UpdatedProject(b) !in steps
  {
    BeforeAfterWriting(options, env, pkgs, |steps|);
  }

  /** When writePackage rejects for the `q`-th package, the command stops
      there: it neither installs nor updates, and returns no exit code. */
  lemma WriteRejectionStopsCommand(
    options: CheckOptions, env: Collaborators, pkgs: seq<PackageMeta>, rejects: Effect -> bool, q: nat)
    requires HasChanges(pkgs) && WantsWrite(options, env)
    requires q < |pkgs| && rejects(WrotePackage(pkgs[q]))
    ensures var r := RespondOrReject(options, env, pkgs, rejects);
            && r.Threw?
            && Installed !in r.effects
            && (forall c :: UpdatedGlobal(c) !in r.effects)
            && (forall b :: UpdatedProject(b) !in r.effects)
  {
    var upto := UpToDateReport(options, pkgs) + WritePrompt(options) + WriteAll(pkgs);
    var after := AfterWriting(options, env, pkgs);
    var r := RespondOrReject(options, env, pkgs, rejects);
    RespondWriting(options, env, pkgs);
    WriteAllAt(pkgs, q);
    var j := |UpToDateReport(options, pkgs) + WritePrompt(options)| + q;
    assert upto[j] == WrotePackage(pkgs[q]);
    assert (upto + after)[j] == upto[j];
    StopsWithin(upto, after, r.effects, rejects, j);
    StoppedBeforeAfterWriting(options, env, pkgs, r.effects);
  }
}

=== FILE: check_run.dfy ===
/** What a check run guarantees: lemmas about CheckSingleProject,
    CheckPackages and the two collectors of src/api/check.ts. */
module CheckRun {
  import opened Types
  import opened CheckApi
  import opened TraceShape

  // ---------------------------------------------------------------------------
  // The private-package filter

  /** The filter of a run rejects a dependency exactly when some loaded
      package is private under that dependency's name. */
  lemma PrivateFilterRejects(packages: seq<PackageMeta>, dep: RawDep)
    ensures !PrivateFilter(PrivatePackageNames(packages))(dep)
            <==> exists k :: 0 <= k < |packages| && IsPrivateNamed(packages[k], dep.name)
  {
  }

  // ---------------------------------------------------------------------------
  // One package

  /** Lifted to a whole package: written exactly under the three-way gate,
      every event about this package, and never a bracket event. */
  lemma SingleProjectGate(
    p: nat, pkg: PackageMeta, options: CheckOptions, filter: Option<DependencyFilter>,
    resolve: Resolver, beforeWrite: WriteAnswer)
    ensures var r := CheckSingleProject(p, pkg, options, filter, resolve, beforeWrite);
      && (AskWrite(p) in r.events <==> options.write && HasUpdate(r.pkg))
      && (Write(p) in r.events <==> options.write && HasUpdate(r.pkg) && beforeWrite(r.pkg) != Some(false))
      && (AfterWrite(p) in r.events <==> Write(p) in r.events)
      && (forall i :: 0 <= i < |r.events| ==> PackageOf(r.events[i]) == Some(p))
      && (forall i :: 0 <= i < |r.events| ==> !r.events[i].Start? && !r.events[i].End?)
      && (forall i :: 1 <= i < |r.events| ==> !r.events[i].Resolve?)
  {
    var r := CheckSingleProject(p, pkg, options, filter, resolve, beforeWrite);
    var w := r.events[1..];
    assert r.events == [r.events[0]] + w;
    forall i | 1 <= i < |r.events|
      ensures r.events[i] == w[i - 1]
    {
    }
  }

  // ---------------------------------------------------------------------------
  // The loop

  /** Package `k`'s block opens with Start(k), then the resolve, and closes
      with End(k) carrying the processed package; every event in it is about
      package `k`, and nothing in between is a bracket. */
  lemma BlockShape(
    packages: seq<PackageMeta>, k: nat, options: CheckOptions, filter: DependencyFilter,
    resolve: Resolver, beforeWrite: WriteAnswer)
    requires k < |packages|
    ensures var b := Block(packages, k, options, filter, resolve, beforeWrite);
      && WellFormedBlock(b, k)
      && b[|b| - 1] == End(k, Processed(packages, k, options, filter, resolve, beforeWrite))
  {
    var s := CheckSingleProject(k, packages[k], options, Some(filter), resolve, beforeWrite);
    SingleProjectGate(k, packages[k], options, Some(filter), resolve, beforeWrite);
    var b := Block(packages, k, options, filter, resolve, beforeWrite);
    assert forall i :: 0 < i < |b| - 1 ==> b[i] == s.events[i - 1];
  }

  /** Package `k`'s block under the three-way write gate. */
  lemma BlockGate(
    packages: seq<PackageMeta>, k: nat, options: CheckOptions, filter: DependencyFilter,
    resolve: Resolver, beforeWrite: WriteAnswer)
    requires k < |packages|
    ensures var b := Block(packages, k, options, filter, resolve, beforeWrite);
      var q := Processed(packages, k, options, filter, resolve, beforeWrite);
      && (AskWrite(k) in b <==> options.write && HasUpdate(q))
      && (Write(k) in b <==> options.write && HasUpdate(q) && beforeWrite(q) != Some(false))
      && (AfterWrite(k) in b <==> Write(k) in b)
      && (forall accepted :: Resolve(k, accepted) in b <==> accepted == Verdicts(filter, packages[k].deps))
  {
    var s := CheckSingleProject(k, packages[k], options, Some(filter), resolve, beforeWrite);
    SingleProjectGate(k, packages[k], options, Some(filter), resolve, beforeWrite);
    assert s.events[0].accepted == Verdicts(filter, packages[k].deps);
    var b := Block(packages, k, options, filter, resolve, beforeWrite);
    assert b == [Start(k)] + s.events + [End(k, s.pkg)];
    forall accepted | Resolve(k, accepted) in b
      ensures accepted == Verdicts(filter, packages[k].deps)
    {
      var i :| 0 <= i < |b| && b[i] == Resolve(k, accepted);
      assert b[i] == s.events[i - 1];
    }
    assert b[1] == s.events[0];
  }

  /** An event about package `q` occurs in the loop from `k` on exactly when
      `q` is one of the packages visited and the event is in `q`'s block. */
  lemma {:induction false} LoopMembership(
    packages: seq<PackageMeta>, k: nat, options: CheckOptions, filter: DependencyFilter,
    resolve: Resolver, beforeWrite: WriteAnswer, e: Event)
    requires k <= |packages|
    requires PackageOf(e).Some?
    ensures e in Loop(packages, k, options, filter, resolve, beforeWrite).trace
            <==> k <= PackageOf(e).value < |packages|
                 && e in Block(packages, PackageOf(e).value, options, filter, resolve, beforeWrite)
    decreases |packages| - k
  {
    if k < |packages| {
      var block := Block(packages, k, options, filter, resolve, beforeWrite);
      var rest := Loop(packages, k + 1, options, filter, resolve, beforeWrite).trace;
      assert Loop(packages, k, options, filter, resolve, beforeWrite).trace == block + rest;
      var v := PackageOf(e).value;
      LoopMembership(packages, k + 1, options, filter, resolve, beforeWrite, e);
      BlockAbout(packages, k, options, filter, resolve, beforeWrite, e);
      ConsMembership(block, rest, k, |packages|, v, e,
        v < |packages| && e in Block(packages, v, options, filter, resolve, beforeWrite));
    }
  }

  /** Only events about package `k` occur in its bracket. */
  lemma BlockAbout(
    packages: seq<PackageMeta>, k: nat, options: CheckOptions, filter: DependencyFilter,
    resolve: Resolver, beforeWrite: WriteAnswer, e: Event)
    requires k < |packages|
    ensures e in Block(packages, k, options, filter, resolve, beforeWrite) ==> PackageOf(e) == Some(k)
  {
    BlockShape(packages, k, options, filter, resolve, beforeWrite);
    BlockMembership(Block(packages, k, options, filter, resolve, beforeWrite), k, e);
  }

  /** The loop from `k` on is a sequence of well-formed blocks for the
      packages `k`, `k + 1`, ... in order. */
  lemma {:induction false} LoopShape(
    packages: seq<PackageMeta>, k: nat, options: CheckOptions, filter: DependencyFilter,
    resolve: Resolver, beforeWrite: WriteAnswer)
    requires k <= |packages|
    ensures LoopLike(Loop(packages, k, options, filter, resolve, beforeWrite).trace, k, |packages|)
    decreases |packages| - k
  {
    if k < |packages| {
      var block := Block(packages, k, options, filter, resolve, beforeWrite);
      var rest := Loop(packages, k + 1, options, filter, resolve, beforeWrite).trace;
      LoopShape(packages, k + 1, options, filter, resolve, beforeWrite);
      BlockShape(packages, k, options, filter, resolve, beforeWrite);
      ConsLoopLike(block, rest, k, |packages|);
    }
  }

  /** What afterPackageEnd sees over the loop is exactly the processed
      packages, in order. */
  lemma {:induction false} LoopEnded(
    packages: seq<PackageMeta>, k: nat, options: CheckOptions, filter: DependencyFilter,
    resolve: Resolver, beforeWrite: WriteAnswer)
    requires k <= |packages|
    ensures var r := Loop(packages, k, options, filter, resolve, beforeWrite);
      EndedPackages(r.trace) == r.packages
    decreases |packages| - k
  {
    if k < |packages| {
      var block := Block(packages, k, options, filter, resolve, beforeWrite);
      var rest := Loop(packages, k + 1, options, filter, resolve, beforeWrite);
      LoopEnded(packages, k + 1, options, filter, resolve, beforeWrite);
      BlockShape(packages, k, options, filter, resolve, beforeWrite);
      BlockEnded(block, k);
      EndedPackagesAppend(block, rest.trace);
    }
  }

  // ---------------------------------------------------------------------------
  // The run

  /** A package event occurs in a run exactly when it occurs in the run's
      package loop. */
  lemma RunMember(options: CheckOptions, packages: seq<PackageMeta>, resolve: Resolver, beforeWrite: WriteAnswer, e: Event)
    requires PackageOf(e).Some?
    ensures e in CheckPackages(options, packages, resolve, beforeWrite).trace
            <==> e in Loop(packages, 0, options, PrivateFilter(PrivatePackageNames(packages)), resolve, beforeWrite).trace
  {
  }

  /** The run-level events frame the package loop: loadCache (when not
      forced) and afterPackagesLoaded come first and nowhere else,
      afterPackagesEnd and dumpCache come last and nowhere else, and what lies
      between is exactly the package loop under the private-package filter. */
  lemma RunFrame(options: CheckOptions, packages: seq<PackageMeta>, resolve: Resolver, beforeWrite: WriteAnswer)
    ensures var t := CheckPackages(options, packages, resolve, beforeWrite).trace;
      var h := if options.force then 1 else 2;
      var loop := Loop(packages, 0, options, PrivateFilter(PrivatePackageNames(packages)), resolve, beforeWrite).trace;
      && |t| == h + |loop| + 2
      && t[h - 1] == Loaded
      && t[h..|t| - 2] == loop
      && LoadCache !in t[1..]
      && Loaded !in t[h..]
      && AllEnd !in t[..|t| - 2]
      && DumpCache !in t[..|t| - 1]
  {
    var filter := PrivateFilter(PrivatePackageNames(packages));
    var loop := Loop(packages, 0, options, filter, resolve, beforeWrite).trace;
    var head: seq<Event> := if options.force then [Loaded] else [LoadCache, Loaded];
    assert CheckPackages(options, packages, resolve, beforeWrite).trace == head + loop + [AllEnd, DumpCache];
    LoopShape(packages, 0, options, filter, resolve, beforeWrite);
    Framed(head, loop, 0, |packages|);
  }

  /** Over a whole run, package `q` is written exactly when `write` is set,
      its resolved entries hold an update, and beforePackageWrite does not
      answer `false`; beforePackageWrite is consulted only when `write` is
      set and there are changes; afterPackageWrite fires exactly for the
      written packages. */
  lemma RunWriteGate(options: CheckOptions, packages: seq<PackageMeta>, resolve: Resolver, beforeWrite: WriteAnswer, q: nat)
    ensures var r := CheckPackages(options, packages, resolve, beforeWrite);
      && (AskWrite(q) in r.trace <==> q < |packages| && options.write && HasUpdate(r.packages[q]))
      && (Write(q) in r.trace
          <==> q < |packages| && options.write && HasUpdate(r.packages[q]) && beforeWrite(r.packages[q]) != Some(false))
      && (AfterWrite(q) in r.trace <==> Write(q) in r.trace)
  {
    var filter := PrivateFilter(PrivatePackageNames(packages));
    RunMember(options, packages, resolve, beforeWrite, AskWrite(q));
    RunMember(options, packages, resolve, beforeWrite, Write(q));
    RunMember(options, packages, resolve, beforeWrite, AfterWrite(q));
    LoopMembership(packages, 0, options, filter, resolve, beforeWrite, AskWrite(q));
    LoopMembership(packages, 0, options, filter, resolve, beforeWrite, Write(q));
    LoopMembership(packages, 0, options, filter, resolve, beforeWrite, AfterWrite(q));
    if q < |packages| {
      BlockGate(packages, q, options, filter, resolve, beforeWrite);
    }
  }

  /** Every loaded package is resolved in the run, and a
      dependency is handed to the resolver as accepted exactly when no
      loaded manifest is private under its name. */
  lemma RunResolvesUnderFilter(
    options: CheckOptions, packages: seq<PackageMeta>, resolve: Resolver, beforeWrite: WriteAnswer,
    q: nat, accepted: seq<bool>)
    ensures Resolve(q, accepted) in CheckPackages(options, packages, resolve, beforeWrite).trace
            <==> && q < |packages|
                 && |accepted| == |packages[q].deps|
                 && forall j :: 0 <= j < |accepted| ==>
                      (accepted[j] <==> !PrivateNamed(packages, packages[q].deps[j].name))
  {
    var filter := PrivateFilter(PrivatePackageNames(packages));
    RunMember(options, packages, resolve, beforeWrite, Resolve(q, accepted));
    LoopMembership(packages, 0, options, filter, resolve, beforeWrite, Resolve(q, accepted));
    if q < |packages| {
      BlockGate(packages, q, options, filter, resolve, beforeWrite);
      var v := Verdicts(filter, packages[q].deps);
      forall j | 0 <= j < |v|
        ensures v[j] <==> !PrivateNamed(packages, packages[q].deps[j].name)
      {
        PrivateFilterRejects(packages, packages[q].deps[j]);
      }
      if |accepted| == |v| && forall j :: 0 <= j < |accepted| ==> (accepted[j] <==> !PrivateNamed(packages, packages[q].deps[j].name)) {
        assert accepted == v;
      }
    }
  }

  /** The order of a whole run: package events never go back to an earlier
      package; the packages are started in strictly increasing order, so
      none twice; each beforePackageStart is immediately followed by that
      package's resolve; each afterPackageEnd is immediately followed by the
      next package's beforePackageStart or, after the last package, by
      afterPackagesEnd. */
  lemma RunOrder(options: CheckOptions, packages: seq<PackageMeta>, resolve: Resolver, beforeWrite: WriteAnswer)
    ensures var t := CheckPackages(options, packages, resolve, beforeWrite).trace;
      && InPackageOrder(t)
      && StartsAscending(t)
      && StartThenResolve(t)
      && (forall i :: 0 <= i < |t| - 1 && t[i].End? ==>
            t[i + 1] == if t[i].p + 1 < |packages| then Start(t[i].p + 1) else AllEnd)
  {
    var filter := PrivateFilter(PrivatePackageNames(packages));
    var loop := Loop(packages, 0, options, filter, resolve, beforeWrite).trace;
    var head: seq<Event> := if options.force then [Loaded] else [LoadCache, Loaded];
    assert CheckPackages(options, packages, resolve, beforeWrite).trace == head + loop + [AllEnd, DumpCache];
    LoopShape(packages, 0, options, filter, resolve, beforeWrite);
    FramedInOrder(head, loop, |packages|);
    FramedStartsAscending(head, loop, |packages|);
    FramedStartThenResolve(head, loop, |packages|);
    FramedEndThenNext(head, loop, |packages|);
  }

  /** beforePackageStart fires at most once per package in a run. */
  lemma RunStartsOnce(
    options: CheckOptions, packages: seq<PackageMeta>, resolve: Resolver, beforeWrite: WriteAnswer,
    q: nat, i: nat, j: nat)
    requires var t := CheckPackages(options, packages, resolve, beforeWrite).trace;
             i < |t| && j < |t| && t[i] == Start(q) && t[j] == Start(q)
    ensures i == j
  {
    RunOrder(options, packages, resolve, beforeWrite);
  }

  /** No call happens twice within a package's bracket, and its write comes
      right after its beforePackageWrite. */
  lemma BlockDistinct(
    packages: seq<PackageMeta>, k: nat, options: CheckOptions, filter: DependencyFilter,
    resolve: Resolver, beforeWrite: WriteAnswer)
    requires k < |packages|
    ensures var b := Block(packages, k, options, filter, resolve, beforeWrite);
      NoRepeats(b) && AskThenWrite(b)
  {
    var s := CheckSingleProject(k, packages[k], options, Some(filter), resolve, beforeWrite);
    var w := WriteCycle(k, s.pkg, options.write, beforeWrite(s.pkg));
    assert s.events == [s.events[0]] + w;
    assert Block(packages, k, options, filter, resolve, beforeWrite) == [Start(k), s.events[0]] + w + [End(k, s.pkg)];
    forall i | 0 <= i < |w| && w[i].Write?
      ensures 0 < i && w[i - 1] == AskWrite(w[i].p)
    {
      assert PackageOf(w[i]) == Some(k);
    }
    BracketDistinct(k, s.events[0], w, End(k, s.pkg));
  }

  /** The loop from `k` on repeats no event and writes each package right
      after its beforePackageWrite. */
  lemma {:induction false} LoopDistinct(
    packages: seq<PackageMeta>, k: nat, options: CheckOptions, filter: DependencyFilter,
    resolve: Resolver, beforeWrite: WriteAnswer)
    requires k <= |packages|
    ensures var t := Loop(packages, k, options, filter, resolve, beforeWrite).trace;
      NoRepeats(t) && AskThenWrite(t)
    decreases |packages| - k
  {
    if k < |packages| {
      var block := Block(packages, k, options, filter, resolve, beforeWrite);
      var rest := Loop(packages, k + 1, options, filter, resolve, beforeWrite).trace;
      assert Loop(packages, k, options, filter, resolve, beforeWrite).trace == block + rest;
      LoopDistinct(packages, k + 1, options, filter, resolve, beforeWrite);
      LoopShape(packages, k + 1, options, filter, resolve, beforeWrite);
      BlockShape(packages, k, options, filter, resolve, beforeWrite);
      BlockDistinct(packages, k, options, filter, resolve, beforeWrite);
      ConsDistinct(block, rest, k, |packages|);
    }
  }

  /** Every event of a run happens at most once: in particular each package
      is consulted, written and closed at most once. Every writePackage comes
      right after that package's beforePackageWrite. */
  lemma RunEventsOnce(options: CheckOptions, packages: seq<PackageMeta>, resolve: Resolver, beforeWrite: WriteAnswer)
    ensures var t := CheckPackages(options, packages, resolve, beforeWrite).trace;
      && (forall i, j :: 0 <= i < j < |t| ==> t[i] != t[j])
      && (forall i :: 0 <= i < |t| && t[i].Write? ==> 0 < i && t[i - 1] == AskWrite(t[i].p))
  {
    var filter := PrivateFilter(PrivatePackageNames(packages));
    var loop := Loop(packages, 0, options, filter, resolve, beforeWrite).trace;
    var head: seq<Event> := if options.force then [Loaded] else [LoadCache, Loaded];
    assert CheckPackages(options, packages, resolve, beforeWrite).trace == head + loop + [AllEnd, DumpCache];
    LoopShape(packages, 0, options, filter, resolve, beforeWrite);
    LoopDistinct(packages, 0, options, filter, resolve, beforeWrite);
    FramedDistinct(head, loop, |packages|);
  }

  /** Every loaded package is started and ended in a run, its end carrying
      the processed package. */
  lemma RunVisitsAll(options: CheckOptions, packages: seq<PackageMeta>, resolve: Resolver, beforeWrite: WriteAnswer, q: nat)
    requires q < |packages|
    ensures var r := CheckPackages(options, packages, resolve, beforeWrite);
      Start(q) in r.trace && End(q, r.packages[q]) in r.trace
  {
    var r := CheckPackages(options, packages, resolve, beforeWrite);
    var filter := PrivateFilter(PrivatePackageNames(packages));
    BlockShape(packages, q, options, filter, resolve, beforeWrite);
    var b := Block(packages, q, options, filter, resolve, beforeWrite);
    assert b[0] == Start(q) && b[|b| - 1] == End(q, r.packages[q]);
    LoopMembership(packages, 0, options, filter, resolve, beforeWrite, Start(q));
    LoopMembership(packages, 0, options, filter, resolve, beforeWrite, End(q, r.packages[q]));
    RunMember(options, packages, resolve, beforeWrite, Start(q));
    RunMember(options, packages, resolve, beforeWrite, End(q, r.packages[q]));
  }

  // ---------------------------------------------------------------------------
  // Failing calls

  /** A failure anywhere before the final dumpCache aborts the run before
      dumpCache: the cache is not dumped. */
  lemma RejectionSkipsDumpCache(
    options: CheckOptions, packages: seq<PackageMeta>, resolve: Resolver, beforeWrite: WriteAnswer,
    rejects: Event -> bool, i: nat)
    requires i < |CheckPackages(options, packages, resolve, beforeWrite).trace| - 1
    requires rejects(CheckPackages(options, packages, resolve, beforeWrite).trace[i])
    ensures var r := CheckPackagesOrReject(options, packages, resolve, beforeWrite, rejects);
            r.Aborted? && |r.trace| <= i + 1 && DumpCache !in r.trace
  {
    var t := CheckPackages(options, packages, resolve, beforeWrite).trace;
    var r := CheckPackagesOrReject(options, packages, resolve, beforeWrite, rejects);
    RunFrame(options, packages, resolve, beforeWrite);
    StopsBy(t, r.trace, rejects, i, |t| - 1, DumpCache);
  }

  /** A package that passes the write gate reaches writePackage strictly
      before afterPackagesEnd. */
  lemma WriteBeforeAllEnd(
    options: CheckOptions, packages: seq<PackageMeta>, resolve: Resolver, beforeWrite: WriteAnswer, q: nat)
    requires q < |packages|
    requires var p := CheckPackages(options, packages, resolve, beforeWrite).packages[q];
             options.write && HasUpdate(p) && beforeWrite(p) != Some(false)
    ensures var t := CheckPackages(options, packages, resolve, beforeWrite).trace;
            exists i :: 0 <= i < |t| - 2 && t[i] == Write(q)
  {
    var t := CheckPackages(options, packages, resolve, beforeWrite).trace;
    RunWriteGate(options, packages, resolve, beforeWrite, q);
    var i :| 0 <= i < |t| && t[i] == Write(q);
    assert i < |t| - 2;
  }

  /** A failure at any event about a package, beforePackageStart included,
      stops the run inside that package: no later package is started and
      afterPackagesEnd does not happen. */
  lemma RejectionInPackage(
    options: CheckOptions, packages: seq<PackageMeta>, resolve: Resolver, beforeWrite: WriteAnswer,
    rejects: Event -> bool, i: nat)
    requires var t := CheckPackages(options, packages, resolve, beforeWrite).trace;
             i < |t| - 2 && rejects(t[i]) && PackageOf(t[i]).Some?
    ensures var t := CheckPackages(options, packages, resolve, beforeWrite).trace;
            var r := CheckPackagesOrReject(options, packages, resolve, beforeWrite, rejects);
            && r.Aborted?
            && AllEnd !in r.trace
            && forall q' :: PackageOf(t[i]).value < q' ==> Start(q') !in r.trace
  {
    var t := CheckPackages(options, packages, resolve, beforeWrite).trace;
    var r := CheckPackagesOrReject(options, packages, resolve, beforeWrite, rejects);
    RunFrame(options, packages, resolve, beforeWrite);
    StopsBy(t, r.trace, rejects, i, |t| - 2, AllEnd);
    RunOrder(options, packages, resolve, beforeWrite);
    PrefixStopsAt(t, r.trace, i, |t| - 2, AllEnd);
  }

  /** When writePackage rejects for package `q`, the run stops there: no
      later package is started, and neither afterPackagesEnd nor dumpCache
      happens. */
  lemma WriteRejectionStopsRun(
    options: CheckOptions, packages: seq<PackageMeta>, resolve: Resolver, beforeWrite: WriteAnswer,
    rejects: Event -> bool, q: nat)
    requires q < |packages| && rejects(Write(q))
    requires var p := CheckPackages(options, packages, resolve, beforeWrite).packages[q];
             options.write && HasUpdate(p) && beforeWrite(p) != Some(false)
    ensures var r := CheckPackagesOrReject(options, packages, resolve, beforeWrite, rejects);
            && r.Aborted?
            && DumpCache !in r.trace
            && AllEnd !in r.trace
            && forall q' :: q < q' ==> Start(q') !in r.trace
  {
    var t := CheckPackages(options, packages, resolve, beforeWrite).trace;
    WriteBeforeAllEnd(options, packages, resolve, beforeWrite, q);
    var i :| 0 <= i < |t| - 2 && t[i] == Write(q);
    RejectionSkipsDumpCache(options, packages, resolve, beforeWrite, rejects, i);
    RejectionInPackage(options, packages, resolve, beforeWrite, rejects, i);
  }

  // ---------------------------------------------------------------------------
  // The two collectors

  /** collectFromProject never writes: its beforePackageWrite always
      answers `false`, so no writePackage or afterPackageWrite occurs. */
  lemma CollectFromProjectNeverWrites(options: CheckOptions, packages: seq<PackageMeta>, resolve: Resolver)
    ensures var r := CheckPackages(options, packages, resolve, _ => Some(false));
      forall i :: 0 <= i < |r.trace| ==> !r.trace[i].Write? && !r.trace[i].AfterWrite?
  {
    var never: WriteAnswer := _ => Some(false);
    var r := CheckPackages(options, packages, resolve, never);
    forall i | 0 <= i < |r.trace|
      ensures !r.trace[i].Write? && !r.trace[i].AfterWrite?
    {
      var q := PackageOf(r.trace[i]);
      RunWriteGate(options, packages, resolve, never, if q.Some? then q.value else 0);
    }
  }

  /** collectFromProject returns every loaded package, in loaded order, as
      the run left it: what afterPackageEnd collected is exactly the run's
      processed packages. */
  lemma CollectFromProjectOrder(options: CheckOptions, packages: seq<PackageMeta>, resolve: Resolver)
    ensures CollectFromProject(options, packages, resolve) == CheckPackages(options, packages, resolve, _ => Some(false)).packages
    ensures |CollectFromProject(options, packages, resolve)| == |packages|
  {
    var never: WriteAnswer := _ => Some(false);
    var filter := PrivateFilter(PrivatePackageNames(packages));
    var loop := Loop(packages, 0, options, filter, resolve, never);
    var head: seq<Event> := if options.force then [Loaded] else [LoadCache, Loaded];
    assert CheckPackages(options, packages, resolve, never).trace == head + loop.trace + [AllEnd, DumpCache];
    LoopEnded(packages, 0, options, filter, resolve, never);
    EndedFramed(head, loop.trace);
  }

  /** collectFromGlobal yields exactly one package whose dependencies are
      the `npm ls` entries in order, each read back unchanged from its
      caret range, each marked for update and taken from `dependencies`;
      the resolver sees every dependency as accepted. */
  lemma GlobalCollection(entries: seq<NpmEntry>, resolve: Resolver)
    ensures var r := CollectFromGlobal(entries, resolve);
      && |r| == 1
      && |r[0].deps| == |entries|
      && (forall i :: 0 <= i < |entries| ==>
            && EntryOf(r[0].deps[i]) == Some(entries[i])
            && r[0].deps[i].update
            && r[0].deps[i].source == "dependencies")
      && r[0].resolved == resolve(r[0].(resolved := []), seq(|entries|, _ => true))
  {
    var r := CollectFromGlobal(entries, resolve);
    forall i | 0 <= i < |entries|
      ensures EntryOf(r[0].deps[i]) == Some(entries[i])
    {
      var v := r[0].deps[i].currentVersion;
      assert v == "^" + entries[i].version;
      assert v[1..] == entries[i].version;
    }
  }
}

=== FILE: trace_shape.dfy ===
/** Shapes of event traces, stated over plain sequences of events: which
    package each event is about, the order of packages, and how the
    brackets of consecutive packages fit together. The lemmas here glue
    traces together and know nothing of how a run computes them. */
module TraceShape {
  import opened Types
  import opened CheckApi

  /** Every event of `t` is about a package with index in [lo, hi). */
  predicate AboutRange(t: seq<Event>, lo: nat, hi: nat)
  {
    forall i :: 0 <= i < |t| ==> PackageOf(t[i]).Some? && lo <= PackageOf(t[i]).value < hi
  }

  /** A trace of package events holds none of the run-level events. */
  lemma OnlyPackageEvents(t: seq<Event>, lo: nat, hi: nat)
    requires AboutRange(t, lo, hi)
    ensures LoadCache !in t && Loaded !in t && AllEnd !in t && DumpCache !in t
  {
    forall e | e in t
      ensures PackageOf(e).Some?
    {
      var i :| 0 <= i < |t| && t[i] == e;
    }
  }

  /** The package index of the package events never decreases along `t`. */
  predicate InPackageOrder(t: seq<Event>)
  {
    forall i, j :: 0 <= i < j < |t| && PackageOf(t[i]).Some? && PackageOf(t[j]).Some? ==>
      PackageOf(t[i]).value <= PackageOf(t[j]).value
  }

  /** Every afterPackageEnd in `t` is immediately followed by the next
      package's beforePackageStart, unless it is the last event. */
  predicate EndThenStart(t: seq<Event>)
  {
    forall i :: 0 <= i < |t| - 1 && t[i].End? ==> t[i + 1] == Start(t[i].p + 1)
  }

  /** Every beforePackageStart in `t` is immediately followed by that
      package's resolve. */
  predicate StartThenResolve(t: seq<Event>)
  {
    forall i :: 0 <= i < |t| && t[i].Start? ==> i + 1 < |t| && t[i + 1].Resolve? && t[i + 1].p == t[i].p
  }

  /** The beforePackageStart events of `t` name strictly increasing
      packages: no package is started twice, none out of order. */
  predicate StartsAscending(t: seq<Event>)
  {
    forall i, j :: 0 <= i < j < |t| && t[i].Start? && t[j].Start? ==> t[i].p < t[j].p
  }

  /** Every package with index in [k, n) is started somewhere in `t`. */
  predicate StartsEach(t: seq<Event>, k: nat, n: nat)
  {
    forall q :: k <= q < n ==> Start(q) in t
  }

  /** Package `q` is ended somewhere in `t`. */
  predicate EndedIn(t: seq<Event>, q: nat)
  {
    exists i :: 0 <= i < |t| && t[i].End? && t[i].p == q
  }

  /** Every package with index in [k, n) is ended somewhere in `t`. */
  predicate EndsEach(t: seq<Event>, k: nat, n: nat)
  {
    forall q :: k <= q < n ==> EndedIn(t, q)
  }

  /** No event occurs twice in `t`. */
  predicate NoRepeats(t: seq<Event>)
  {
    forall i, j :: 0 <= i < j < |t| ==> t[i] != t[j]
  }

  /** Every writePackage in `t` comes right after that package's
      beforePackageWrite. */
  predicate AskThenWrite(t: seq<Event>)
  {
    forall i :: 0 <= i < |t| && t[i].Write? ==> 0 < i && t[i - 1] == AskWrite(t[i].p)
  }

  /** The shape of one package's events: Start(k), its resolve, possibly its
      write step, End(k); all about package `k`. */
  predicate WellFormedBlock(b: seq<Event>, k: nat)
  {
    && |b| >= 3
    && b[0] == Start(k)
    && b[1].Resolve? && b[1].p == k
    && b[|b| - 1].End? && b[|b| - 1].p == k
    && AboutRange(b, k, k + 1)
    && (forall i :: 0 < i < |b| ==> !b[i].Start?)
    && (forall i :: 0 <= i < |b| - 1 ==> !b[i].End?)
  }

  /** The shape of the package loop from `k` to `n`: its events are about
      those packages, their index never decreases, every package is started
      exactly once and in increasing order and every one is ended, every End is followed by the
      next Start and every Start by its resolve; it opens with Start(k) and
      closes with the End of package `n - 1`. */
  predicate LoopLike(t: seq<Event>, k: nat, n: nat)
  {
    && AboutRange(t, k, n)
    && InPackageOrder(t)
    && StartsAscending(t)
    && StartsEach(t, k, n)
    && EndsEach(t, k, n)
    && EndThenStart(t)
    && StartThenResolve(t)
    && (|t| > 0 <==> k < n)
    && (|t| > 0 ==> t[0] == Start(k) && t[|t| - 1].End? && t[|t| - 1].p == n - 1)
  }

  /** A well-formed block satisfies each ordering property on its own. */
  lemma BlockOrdered(b: seq<Event>, k: nat)
    requires WellFormedBlock(b, k)
    ensures InPackageOrder(b) && EndThenStart(b) && StartThenResolve(b)
  {
    forall i | 0 <= i < |b| && b[i].Start?
      ensures i + 1 < |b| && b[i + 1].Resolve? && b[i + 1].p == b[i].p
    {
      assert i == 0;
    }
  }

  /** Only events about package `k` occur in its block. */
  lemma BlockMembership(b: seq<Event>, k: nat, e: Event)
    requires WellFormedBlock(b, k)
    ensures e in b ==> PackageOf(e) == Some(k)
  {
    if e in b {
      var i :| 0 <= i < |b| && b[i] == e;
    }
  }

  /** One step of the loop's membership: an event about package `v` is in a
      block for `k` followed by the loop from `k + 1` exactly when `v` lies
      in range and the event is in `v`'s block (`inBlock`). */
  lemma ConsMembership(block: seq<Event>, rest: seq<Event>, k: nat, n: nat, v: nat, e: Event, inBlock: bool)
    requires k < n
    requires e in block ==> v == k
    requires v == k ==> (inBlock <==> e in block)
    requires e in rest <==> k + 1 <= v < n && inBlock
    ensures e in block + rest <==> k <= v < n && inBlock
  {
  }

  /** Gluing a trace about packages [lo, mid) to one about [mid, hi) keeps
      both the range and the order. */
  lemma AppendOrdered(a: seq<Event>, b: seq<Event>, lo: nat, mid: nat, hi: nat)
    requires AboutRange(a, lo, mid) && AboutRange(b, mid, hi)
    requires InPackageOrder(a) && InPackageOrder(b)
    requires lo <= mid <= hi
    ensures AboutRange(a + b, lo, hi) && InPackageOrder(a + b)
  {
    var t := a + b;
    forall i | 0 <= i < |t|
      ensures PackageOf(t[i]).Some? && lo <= PackageOf(t[i]).value < hi
    {
      if i < |a| { assert t[i] == a[i]; } else { assert t[i] == b[i - |a|]; }
    }
    forall i, j | 0 <= i < j < |t| && PackageOf(t[i]).Some? && PackageOf(t[j]).Some?
      ensures PackageOf(t[i]).value <= PackageOf(t[j]).value
    {
      if j < |a| {
        assert t[i] == a[i] && t[j] == a[j];
      } else if i < |a| {
        assert t[i] == a[i] && t[j] == b[j - |a|];
      } else {
        assert t[i] == b[i - |a|] && t[j] == b[j - |a|];
      }
    }
  }

  /** Gluing two traces keeps every End followed by the next Start when the
      first ends with an End and the second opens with the next Start. */
  lemma EndThenStartAppend(a: seq<Event>, b: seq<Event>)
    requires EndThenStart(a) && EndThenStart(b)
    requires |a| > 0 && a[|a| - 1].End?
    requires |b| > 0 ==> b[0] == Start(a[|a| - 1].p + 1)
    ensures EndThenStart(a + b)
  {
    var t := a + b;
    forall i | 0 <= i < |t| - 1 && t[i].End?
      ensures t[i + 1] == Start(t[i].p + 1)
    {
      if i < |a| - 1 {
        assert t[i] == a[i] && t[i + 1] == a[i + 1];
      } else if i == |a| - 1 {
        assert t[i] == a[i] && t[i + 1] == b[0];
      } else {
        assert t[i] == b[i - |a|] && t[i + 1] == b[i + 1 - |a|];
      }
    }
  }

  /** Gluing two traces keeps every Start followed by its resolve. */
  lemma StartThenResolveAppend(a: seq<Event>, b: seq<Event>)
    requires StartThenResolve(a) && StartThenResolve(b)
    ensures StartThenResolve(a + b)
  {
    var t := a + b;
    forall i | 0 <= i < |t| && t[i].Start?
      ensures i + 1 < |t| && t[i + 1].Resolve? && t[i + 1].p == t[i].p
    {
      if i < |a| {
        assert t[i] == a[i] && t[i + 1] == a[i + 1];
      } else {
        assert t[i] == b[i - |a|] && t[i + 1] == b[i + 1 - |a|];
      }
    }
  }

  /** Gluing two traces whose starts are split at `mid` keeps the starts
      strictly increasing. */
  lemma StartsAscendingAppend(a: seq<Event>, b: seq<Event>, mid: nat)
    requires StartsAscending(a) && StartsAscending(b)
    requires forall i :: 0 <= i < |a| && a[i].Start? ==> a[i].p < mid
    requires forall j :: 0 <= j < |b| && b[j].Start? ==> mid <= b[j].p
    ensures StartsAscending(a + b)
  {
    var t := a + b;
    forall i, j | 0 <= i < j < |t| && t[i].Start? && t[j].Start?
      ensures t[i].p < t[j].p
    {
      if j < |a| {
        assert t[i] == a[i] && t[j] == a[j];
      } else if i >= |a| {
        assert t[i] == b[i - |a|] && t[j] == b[j - |a|];
      } else {
        assert t[i] == a[i] && t[j] == b[j - |a|];
      }
    }
  }

  /** A block for package `k` in front of the loop from `k + 1` starts
      `k` once and then the later packages in increasing order. */
  lemma ConsStarts(block: seq<Event>, rest: seq<Event>, k: nat, n: nat)
    requires k < n
    requires WellFormedBlock(block, k)
    requires AboutRange(rest, k + 1, n) && StartsAscending(rest) && StartsEach(rest, k + 1, n)
    ensures StartsAscending(block + rest) && StartsEach(block + rest, k, n)
  {
    forall i | 0 <= i < |block| && block[i].Start?
      ensures block[i].p < k + 1
    {
      assert PackageOf(block[i]) == Some(block[i].p);
    }
    forall j | 0 <= j < |rest| && rest[j].Start?
      ensures k + 1 <= rest[j].p
    {
      assert PackageOf(rest[j]) == Some(rest[j].p);
    }
    StartsAscendingAppend(block, rest, k + 1);
    forall q | k <= q < n
      ensures Start(q) in block + rest
    {
      if q == k {
        assert (block + rest)[0] == Start(k);
      } else {
        assert Start(q) in rest;
      }
    }
  }

  /** Gluing traces whose events share nothing keeps them free of
      repeats, and keeps every write after its beforePackageWrite when the
      second does not open with a write. */
  lemma AppendDistinct(a: seq<Event>, b: seq<Event>)
    requires NoRepeats(a) && NoRepeats(b) && AskThenWrite(a) && AskThenWrite(b)
    requires forall i, j :: 0 <= i < |a| && 0 <= j < |b| ==> a[i] != b[j]
    requires |b| > 0 ==> !b[0].Write?
    ensures NoRepeats(a + b) && AskThenWrite(a + b)
  {
    var t := a + b;
    forall i, j | 0 <= i < j < |t|
      ensures t[i] != t[j]
    {
      if j < |a| {
        assert t[i] == a[i] && t[j] == a[j];
      } else if i >= |a| {
        assert t[i] == b[i - |a|] && t[j] == b[j - |a|];
      } else {
        assert t[i] == a[i] && t[j] == b[j - |a|];
      }
    }
    forall i | 0 <= i < |t| && t[i].Write?
      ensures 0 < i && t[i - 1] == AskWrite(t[i].p)
    {
      if i < |a| {
        assert t[i] == a[i] && t[i - 1] == a[i - 1];
      } else {
        assert t[i] == b[i - |a|] && t[i - 1] == b[i - 1 - |a|];
      }
    }
  }

  /** A bracket Start, resolve, write step, End repeats no event when the
      write step repeats none and holds only write-step events. */
  lemma BracketDistinct(k: nat, r: Event, w: seq<Event>, e: Event)
    requires r.Resolve? && e.End?
    requires NoRepeats(w) && AskThenWrite(w)
    requires forall i :: 0 <= i < |w| ==> w[i].AskWrite? || w[i].Write? || w[i].AfterWrite?
    requires |w| > 0 ==> !w[0].Write?
    ensures NoRepeats([Start(k), r] + w + [e]) && AskThenWrite([Start(k), r] + w + [e])
  {
    var opening := [Start(k), r];
    AppendDistinct(opening, w);
    var front := opening + w;
    forall i | 0 <= i < |front|
      ensures front[i] != e
    {
      if i >= 2 {
        assert front[i] == w[i - 2];
      }
    }
    AppendDistinct(front, [e]);
  }

  /** Traces about disjoint package ranges share no event. */
  lemma RangesDisjoint(a: seq<Event>, b: seq<Event>, lo: nat, mid: nat, hi: nat)
    requires AboutRange(a, lo, mid) && AboutRange(b, mid, hi)
    ensures forall i, j :: 0 <= i < |a| && 0 <= j < |b| ==> a[i] != b[j]
  {
    forall i, j | 0 <= i < |a| && 0 <= j < |b|
      ensures a[i] != b[j]
    {
      assert PackageOf(a[i]).value < mid <= PackageOf(b[j]).value;
    }
  }

  /** A block for package `k` in front of the loop from `k + 1` is
      repeat-free with every write after its beforePackageWrite. */
  lemma ConsDistinct(block: seq<Event>, rest: seq<Event>, k: nat, n: nat)
    requires k < n
    requires WellFormedBlock(block, k) && NoRepeats(block) && AskThenWrite(block)
    requires LoopLike(rest, k + 1, n) && NoRepeats(rest) && AskThenWrite(rest)
    ensures NoRepeats(block + rest) && AskThenWrite(block + rest)
  {
    RangesDisjoint(block, rest, k, k + 1, n);
    AppendDistinct(block, rest);
  }

  /** A well-formed block for package `k` in front of the loop from `k + 1`
      is the loop from `k`. */
  lemma ConsLoopLike(block: seq<Event>, rest: seq<Event>, k: nat, n: nat)
    requires k < n
    requires WellFormedBlock(block, k)
    requires LoopLike(rest, k + 1, n)
    ensures LoopLike(block + rest, k, n)
  {
    BlockOrdered(block, k);
    AppendOrdered(block, rest, k, k + 1, n);
    EndThenStartAppend(block, rest);
    StartThenResolveAppend(block, rest);
    ConsStarts(block, rest, k, n);
    var t := block + rest;
    forall q | k <= q < n
      ensures EndedIn(t, q)
    {
      if q == k {
        assert t[|block| - 1] == block[|block| - 1];
      } else {
        assert EndedIn(rest, q);
        var i :| 0 <= i < |rest| && rest[i].End? && rest[i].p == q;
        assert t[|block| + i] == rest[i];
      }
    }
    assert t[0] == block[0];
    if |rest| > 0 {
      assert t[|t| - 1] == rest[|rest| - 1];
    } else {
      assert t[|t| - 1] == block[|block| - 1];
    }
  }

  /** afterPackageEnd's view distributes over gluing traces. */
  lemma {:induction false} EndedPackagesAppend(a: seq<Event>, b: seq<Event>)
    ensures EndedPackages(a + b) == EndedPackages(a) + EndedPackages(b)
    decreases |a|
  {
    if |a| == 0 {
      assert a + b == b;
    } else {
      var x := if a[0].End? then [a[0].pkg] else [];
      assert (a + b)[0] == a[0];
      assert (a + b)[1..] == a[1..] + b;
      assert EndedPackages(a + b) == x + EndedPackages(a[1..] + b);
      EndedPackagesAppend(a[1..], b);
      assert EndedPackages(a) == x + EndedPackages(a[1..]);
      assert x + (EndedPackages(a[1..]) + EndedPackages(b)) == (x + EndedPackages(a[1..])) + EndedPackages(b);
    }
  }

  /** A trace without afterPackageEnd events hands no package to it. */
  lemma {:induction false} EndedPackagesNoEnd(t: seq<Event>)
    requires forall i :: 0 <= i < |t| ==> !t[i].End?
    ensures EndedPackages(t) == []
  {
    if |t| > 0 {
      EndedPackagesNoEnd(t[1..]);
    }
  }

  /** A block hands exactly one package to afterPackageEnd: the one its
      closing End carries. */
  lemma BlockEnded(b: seq<Event>, k: nat)
    requires WellFormedBlock(b, k)
    ensures EndedPackages(b) == [b[|b| - 1].pkg]
  {
    var init := b[..|b| - 1];
    assert b == init + [b[|b| - 1]];
    EndedPackagesNoEnd(init);
    EndedPackagesAppend(init, [b[|b| - 1]]);
    assert EndedPackages([b[|b| - 1]]) == [b[|b| - 1].pkg];
  }

  /** Framing a trace of package events between a head and the two closing
      run events. */
  lemma Framed(head: seq<Event>, loop: seq<Event>, lo: nat, hi: nat)
    requires head == [Loaded] || head == [LoadCache, Loaded]
    requires AboutRange(loop, lo, hi)
    ensures var t := head + loop + [AllEnd, DumpCache];
      && t[|head| - 1] == Loaded
      && t[|head|..|t| - 2] == loop
      && LoadCache !in t[1..]
      && Loaded !in t[|head|..]
      && AllEnd !in t[..|t| - 2]
      && DumpCache !in t[..|t| - 1]
  {
    var t := head + loop + [AllEnd, DumpCache];
    OnlyPackageEvents(loop, lo, hi);
    assert t[1..] == head[1..] + loop + [AllEnd, DumpCache];
    assert t[|head|..] == loop + [AllEnd, DumpCache];
    assert t[|head|..|t| - 2] == loop;
    assert t[..|t| - 2] == head + loop;
    assert t[..|t| - 1] == head + loop + [AllEnd];
  }

  /** Framing a trace of package events between the run's head and its two
      closing events keeps the order of packages. */
  lemma FramedInOrder(head: seq<Event>, loop: seq<Event>, n: nat)
    requires head == [Loaded] || head == [LoadCache, Loaded]
    requires AboutRange(loop, 0, n) && InPackageOrder(loop)
    ensures InPackageOrder(head + loop + [AllEnd, DumpCache])
  {
    var t := head + loop + [AllEnd, DumpCache];
    var h := |head|;
    forall i, j | 0 <= i < j < |t| && PackageOf(t[i]).Some? && PackageOf(t[j]).Some?
      ensures PackageOf(t[i]).value <= PackageOf(t[j]).value
    {
      assert h <= i && j < h + |loop|;
      assert t[i] == loop[i - h] && t[j] == loop[j - h];
    }
  }

  /** Framing adds no start, so the starts stay strictly increasing. */
  lemma FramedStartsAscending(head: seq<Event>, loop: seq<Event>, n: nat)
    requires head == [Loaded] || head == [LoadCache, Loaded]
    requires AboutRange(loop, 0, n) && StartsAscending(loop)
    ensures StartsAscending(head + loop + [AllEnd, DumpCache])
  {
    var t := head + loop + [AllEnd, DumpCache];
    var h := |head|;
    forall i, j | 0 <= i < j < |t| && t[i].Start? && t[j].Start?
      ensures t[i].p < t[j].p
    {
      assert h <= i && j < h + |loop|;
      assert t[i] == loop[i - h] && t[j] == loop[j - h];
    }
  }

  /** Framing adds only the run-level events, each once, and no write. */
  lemma FramedDistinct(head: seq<Event>, loop: seq<Event>, n: nat)
    requires head == [Loaded] || head == [LoadCache, Loaded]
    requires AboutRange(loop, 0, n) && NoRepeats(loop) && AskThenWrite(loop)
    requires |loop| > 0 ==> !loop[0].Write?
    ensures NoRepeats(head + loop + [AllEnd, DumpCache]) && AskThenWrite(head + loop + [AllEnd, DumpCache])
  {
    OnlyPackageEvents(loop, 0, n);
    AppendDistinct(head, loop);
    var tail := [AllEnd, DumpCache];
    forall i, j | 0 <= i < |head + loop| && 0 <= j < |tail|
      ensures (head + loop)[i] != tail[j]
    {
      if i >= |head| {
        assert (head + loop)[i] == loop[i - |head|];
      }
    }
    AppendDistinct(head + loop, tail);
  }

  /** Framing keeps every Start followed by its resolve. */
  lemma FramedStartThenResolve(head: seq<Event>, loop: seq<Event>, n: nat)
    requires head == [Loaded] || head == [LoadCache, Loaded]
    requires AboutRange(loop, 0, n) && StartThenResolve(loop)
    ensures StartThenResolve(head + loop + [AllEnd, DumpCache])
  {
    var t := head + loop + [AllEnd, DumpCache];
    var h := |head|;
    forall i | 0 <= i < |t| && t[i].Start?
      ensures i + 1 < |t| && t[i + 1].Resolve? && t[i + 1].p == t[i].p
    {
      assert h <= i < h + |loop|;
      assert t[i] == loop[i - h];
      assert t[i + 1] == loop[i + 1 - h];
    }
  }

  /** Framing sends the loop's last End to afterPackagesEnd and keeps every
      other End followed by the next Start. */
  lemma FramedEndThenNext(head: seq<Event>, loop: seq<Event>, n: nat)
    requires head == [Loaded] || head == [LoadCache, Loaded]
    requires LoopLike(loop, 0, n)
    ensures var t := head + loop + [AllEnd, DumpCache];
      forall i :: 0 <= i < |t| - 1 && t[i].End? ==> t[i + 1] == if t[i].p + 1 < n then Start(t[i].p + 1) else AllEnd
  {
    var t := head + loop + [AllEnd, DumpCache];
    var h := |head|;
    forall i | 0 <= i < |t| - 1 && t[i].End?
      ensures t[i + 1] == if t[i].p + 1 < n then Start(t[i].p + 1) else AllEnd
    {
      assert h <= i < h + |loop|;
      assert t[i] == loop[i - h];
      if i - h < |loop| - 1 {
        assert t[i + 1] == loop[i + 1 - h];
        assert loop[i - h].p + 1 < n;
      } else {
        assert t[i + 1] == AllEnd;
      }
    }
  }

  /** afterPackageEnd sees the same packages in a framed loop as in the loop. */
  lemma EndedFramed(head: seq<Event>, loop: seq<Event>)
    requires head == [Loaded] || head == [LoadCache, Loaded]
    ensures EndedPackages(head + loop + [AllEnd, DumpCache]) == EndedPackages(loop)
  {
    EndedPackagesAppend(head + loop, [AllEnd, DumpCache]);
    EndedPackagesAppend(head, loop);
    EndedPackagesNoEnd(head);
    EndedPackagesNoEnd([AllEnd, DumpCache]);
  }

  /** A prefix of an ordered trace that ends no later than position `i`
      holds no Start of a package after the one at `i`, and misses any
      event that the trace only has from position `m > i` on. */
  lemma PrefixStopsAt(t: seq<Event>, r: seq<Event>, i: nat, m: nat, e: Event)
    requires InPackageOrder(t)
    requires i < m <= |t| && PackageOf(t[i]).Some?
    requires |r| <= i + 1 && r == t[..|r|]
    requires e !in t[..m]
    ensures e !in r
    ensures forall q :: PackageOf(t[i]).value < q ==> Start(q) !in r
  {
    assert r == t[..m][..|r|];
    forall q | PackageOf(t[i]).value < q
      ensures Start(q) !in r
    {
    }
  }
}

=== FILE: types.dfy ===
/** The data a check run works on: packages as loaded from their manifests,
    their declared and resolved dependencies, and the options of one
    invocation. Only the fields the check run and the check command read are
    kept. */
module Types {

  datatype Option<+T> = None | Some(value: T)

  /** The two fields of a parsed manifest that the check run reads: its
      declared `name` (the empty string when absent) and whether it is
      marked `private`. */
  datatype Manifest = Manifest(name: string, isPrivate: bool)

  /** A dependency as declared in a manifest; `source` names the manifest
      section it was read from. */
  datatype RawDep = RawDep(name: string, currentVersion: string, source: string, update: bool)

  /** A dependency after resolution against the registry; `update` says
      whether the target version is a change worth writing. */
  datatype ResolvedDep = ResolvedDep(
    name: string,
    currentVersion: string,
    targetVersion: string,
    source: string,
    update: bool)

  /** One manifest of the workspace (or the synthetic package standing for
      the globally installed tools, which has no manifest). `resolved` is
      empty until the package has been resolved. */
  datatype PackageMeta = PackageMeta(
    name: string,
    raw: Option<Manifest>,
    version: string,
    filepath: string,
    relative: string,
    deps: seq<RawDep>,
    resolved: seq<ResolvedDep>)

  /** The flags of one invocation that the check run and the check command
      branch on. */
  datatype CheckOptions = CheckOptions(
    force: bool,
    write: bool,
    global: bool,
    interactive: bool,
    all: bool,
    failOnOutdated: bool,
    install: bool,
    update: bool,
    recursive: bool)

  /** A package has pending changes when one of its resolved entries is an update. */
  predicate HasUpdate(pkg: PackageMeta)
  {
    exists j :: 0 <= j < |pkg.resolved| && pkg.resolved[j].update
  }

  /** The resolved entries marked as updates, in their original order. */
  function Changes(resolved: seq<ResolvedDep>): (r: seq<ResolvedDep>)
    ensures |r| <= |resolved|
    ensures forall d :: d in r ==> d in resolved && d.update
    ensures forall d :: d in resolved && d.update ==> d in r
  {
    if |resolved| == 0 then []
    else (if resolved[0].update then [resolved[0]] else []) + Changes(resolved[1..])
  }

  /** "at least one change" in the sense of a non-empty filter result is
      the same as the existential `HasUpdate`. */
  lemma ChangesNonEmptyIff(pkg: PackageMeta)
    ensures |Changes(pkg.resolved)| > 0 <==> HasUpdate(pkg)
  {
    if HasUpdate(pkg) {
      var j :| 0 <= j < |pkg.resolved| && pkg.resolved[j].update;
      assert pkg.resolved[j] in Changes(pkg.resolved);
    }
    if |Changes(pkg.resolved)| > 0 {
      var d := Changes(pkg.resolved)[0];
      assert d in pkg.resolved && d.update;
      var j :| 0 <= j < |pkg.resolved| && pkg.resolved[j] == d;
      assert pkg.resolved[j].update;
    }
  }

  /** `changes` distributes over concatenation: it keeps the update entries
      in their original order and with their multiplicity. Together with
      `ChangesOne` this determines it completely. */
  lemma {:induction false} ChangesAppend(a: seq<ResolvedDep>, b: seq<ResolvedDep>)
    ensures Changes(a + b) == Changes(a) + Changes(b)
    decreases |a|
  {
    if |a| == 0 {
      assert a + b == b;
    } else {
      var x := if a[0].update then [a[0]] else [];
      assert (a + b)[0] == a[0];
      assert (a + b)[1..] == a[1..] + b;
      assert Changes(a + b) == x + Changes(a[1..] + b);
      ChangesAppend(a[1..], b);
      assert Changes(a) == x + Changes(a[1..]);
      assert x + (Changes(a[1..]) + Changes(b)) == (x + Changes(a[1..])) + Changes(b);
    }
  }

  /** A single entry is kept exactly when it is an update. */
  lemma ChangesOne(d: ResolvedDep)
    ensures Changes([d]) == if d.update then [d] else []
  {
    assert [d][1..] == [];
  }

  // ---------------------------------------------------------------------------
  // Rejection

  /** The position of the first step in `t` that rejects, if any. Every
      collaborator call is awaited with no try/catch around it, so the
      first rejection ends the whole sequence of steps. */
  function FirstRejection<T>(t: seq<T>, rejects: T -> bool, k: nat): (r: Option<nat>)
    requires k <= |t|
    ensures r.None? <==> forall i :: k <= i < |t| ==> !rejects(t[i])
    ensures r.Some? ==> k <= r.value < |t| && rejects(t[r.value])
                        && forall i :: k <= i < r.value ==> !rejects(t[i])
    decreases |t| - k
  {
    if k == |t| then None
    else if rejects(t[k]) then Some(k)
    else FirstRejection(t, rejects, k + 1)
  }

  /** The steps taken up to a failure: `None` when no step of `t` rejects,
      otherwise the prefix of `t` that ends at its first rejecting step. */
  function UpToRejection<T>(t: seq<T>, rejects: T -> bool): (r: Option<seq<T>>)
    ensures r.None? <==> forall i :: 0 <= i < |t| ==> !rejects(t[i])
    ensures r.Some? ==> && 0 < |r.value| <= |t| && r.value == t[..|r.value|]
                        && rejects(r.value[|r.value| - 1])
                        && forall i :: 0 <= i < |r.value| - 1 ==> !rejects(r.value[i])
  {
    match FirstRejection(t, rejects, 0)
    case None => None
    case Some(i) => Some(t[..i + 1])
  }

  /** Steps that stop at the first rejection stop no later than a known
      rejection at `i`. */
  lemma StopsAt<T>(t: seq<T>, r: seq<T>, rejects: T -> bool, i: nat)
    requires 0 < |r| <= |t| && r == t[..|r|]
    requires forall j :: 0 <= j < |r| - 1 ==> !rejects(r[j])
    requires i < |t| && rejects(t[i])
    ensures |r| <= i + 1
  {
  }

  /** ... and so they miss whatever lies only beyond `m`. */
  lemma StopsBy<T>(t: seq<T>, r: seq<T>, rejects: T -> bool, i: nat, m: nat, x: T)
    requires 0 < |r| <= |t| && r == t[..|r|]
    requires forall j :: 0 <= j < |r| - 1 ==> !rejects(r[j])
    requires i < m <= |t| && rejects(t[i]) && x !in t[..m]
    ensures |r| <= i + 1 && x !in r
  {
    StopsAt(t, r, rejects, i);
    assert r == t[..m][..|r|];
  }

  /** A known rejection inside the first part `a` of the steps `a + b`
      keeps the steps taken within `a`. */
  lemma StopsWithin<T>(a: seq<T>, b: seq<T>, r: seq<T>, rejects: T -> bool, j: nat)
    requires 0 < |r| <= |a + b| && r == (a + b)[..|r|]
    requires forall i :: 0 <= i < |r| - 1 ==> !rejects(r[i])
    requires j < |a| && rejects(a[j])
    ensures |r| <= |a| && r == a[..|r|]
  {
    assert (a + b)[j] == a[j];
    StopsAt(a + b, r, rejects, j);
    assert (a + b)[..|r|] == a[..|r|];
  }
}
